=== FILE: README.md ===
# Shift-schedule board: a Dafny model of the client-side schedule logic

The board is a month calendar on which a coordinator assigns roster members to a
morning shift (capacity 2) and an afternoon shift (capacity 1) of each day. The
browser keeps the whole schedule as one object that maps a `YYYY-MM-DD` date key
to `{morning: [...], afternoon: [...]}` name lists. It limits every member except
one exempt member to four shifts per month-relative week, and saves the full
document after each change. This project models that logic in `app.js` as
immutable Dafny values and pure functions, and proves the invariants it keeps.

Modules, one per file:

- `Wrappers` (`wrappers.dfy`): `Option` and `Result`.
- `Text` (`text.dfy`): the string primitives the code uses. These are `String(n)`,
  `padStart(2, '0')`, `Number(part)` and `split('-')`. The file proves round trips
  between them.
- `Calendar` (`calendar.dfy`): the proleptic Gregorian calendar of JavaScript's
  `Date`, meaning leap years, month lengths, and the weekday as a day number
  since 0001-01-01. It proves that the weekday advances by one every day, across
  month and year ends.
- `DateKeys` (`datekeys.dfy`): `getDateKey`, the `split('-').map(Number)` parse,
  `formatDateLabel`, and the two-digit-year rule of `new Date(y, m, d)`.
- `Weeks` (`weeks.dfy`): `getWeekNumber`, where the week number is
  `ceil((day + firstWeekday) / 7)` and the key is `{year}-{MM}-W{n}`.
- `HolidayTable` (`holidaytable.dfy`): `JAPAN_HOLIDAYS` and `isJapanHoliday`.
- `Holidays` (`holidays.dfy`): `getMonthHolidays`.
- `Store` (`store.dfy`): `SHIFT_RULES`, `MEMBERS` and the schedule document.
  It covers `ensureDate`, the guarded append of the save button, and the
  splice-then-delete of `removeAssignment`.
- `Counts` (`counts.dfy`): `getWeeklyShiftCounts`, as a loop over the schedule
  that is proved equal to a set-sum specification.
- `Eligibility` (`eligibility.dfy`): the member picker of `populateMemberOptions`
  and the weekly cap it enforces.
- `Workflow` (`workflow.dfy`): one session's events. These are add, save, cancel
  and remove, with the save-then-reload-on-failure step.

The network is a parameter. Every save is a `SaveResult`: it either succeeded,
or it failed and the reload that follows returned a remote snapshot or failed
too. The `confirm()` dialog of a removal is a boolean parameter.

Two places where the code and its usual description differ. The model follows
the code in both:

- Opening the assignment dialog calls `ensureDate`, and cancelling does not undo
  that. So an empty day record can stay in the schedule, and the next successful
  save sends it to the server. A removal deletes only the record of the date it
  touches, when both lists are empty; a failed save whose reload succeeds
  replaces the whole local schedule. See `Workflow.OpenThenCancelLeavesEmptyDay`.
- The save button re-checks capacity and duplicates but not the weekly cap.
  The picker is built once, when the dialog opens, and disables capped names.
  So the cap holds only while the picker's offers stay good. A removal never
  withdraws an offer (`Eligibility.RemoveKeepsEligible`), and the dialog stays
  open across a removal. A failed save's reload, though, can bring in a remote
  copy on which an offered name is already capped, and the save button then
  accepts it. `Workflow.StepPreservesCap` and `Workflow.RunPreservesCap` prove
  the cap for saves of names the picker offered, on runs without a reload.

## Model

| member | source | states |
|---|---|---|
| `Text.Show` | app.js:149-151 | `String(n)` of a non-negative integer is a non-empty run of digits, one digit exactly when n < 10 (for the integers below 1e21 that date parts are) |
| `Text.Pad2` | app.js:149-150 | `padStart(2, '0')` yields at least two digits, exactly two below 100 |
| `Text.Number` | app.js:161 | `Number(part)` is a number exactly when the part is all decimal digits |
| `Text.Split` | app.js:74 | `split('-')` yields at least one piece and no piece contains the separator |
| `Text.JoinSplit` | app.js:74 | joining the pieces of `split('-')` with the separator restores the string |
| `Text.NumberOfShow` | app.js:188 | `Number(String(n)) === n` |
| `Text.NumberOfPad2` | app.js:188 | `Number(String(n).padStart(2, '0')) === n`: the padding zero does not change the value |
| `Text.ShowInjective` | app.js:148-151 | two numbers have the same `String(n)` exactly when they are equal |
| `Text.Pad2Injective` | app.js:149-150 | two numbers have the same padded rendering exactly when they are equal |
| `Calendar.DaysInMonth` | app.js:210 | a month has 28 to 31 days, 29 exactly for February of a Gregorian leap year |
| `Calendar.Weekday` | app.js:171-172 | `getDay()` lies in 0..6 |
| `Calendar.WeekdayOfNextDay` | app.js:171-172 | the weekday of the next calendar day is one more, modulo 7, across month and year ends |
| `Calendar.NextDayNumber` | app.js:210 | consecutive dates have consecutive day numbers, so month lengths and the leap rule fit together |
| `Calendar.YearLength` | app.js:210 | the last day of a year and the first of the next are one day apart under the Gregorian leap rule |
| `Calendar.WeekdayInMonth` | app.js:299 | the weekday of day d is (weekday of the first + d - 1) mod 7 |
| `Calendar.NewYear2025IsWednesday` | app.js:171-172 | 1 January 2025 has weekday 3 (Wednesday) |
| `DateKeys.JsYear` | app.js:189 | `new Date(y, ...)` reads a year 0..99 as exactly 1900 + y and keeps every later year as it is |
| `DateKeys.ParseDateKey` | app.js:188 | the parse succeeds exactly when there are three parts and each is all digits |
| `DateKeys.DateOfKey` | app.js:188-189 | a key yields a date exactly when it parses and the parsed parts, with the two-digit-year rule applied, form a real calendar date; the date is then exactly those parts |
| `DateKeys.FormatDateLabel` | app.js:160-163 | a parsing key gives `{y}년 {m}월 {d}일` from its numbers; a key with fewer than three parts ends in `undefined일`; a non-numeric year part gives `NaN년` |
| `DateKeys.DateKey` | app.js:147-152 | a date key splits into the year, the padded month and the padded day, and parses back to the same date |
| `DateKeys.DateKeyInjective` | app.js:147-152 | two dates have the same key exactly when they are equal |
| `DateKeys.DateOfDateKey` | app.js:188-189 | the key of a real date from year 100 on leads back to that date |
| `DateKeys.FormatDateLabelOfKey` | app.js:147-163 | the label of a date key is `{y}년 {m}월 {d}일` with the padding dropped |
| `DateKeys.DateKeyExample` | app.js:147-152 | 5 January 2025 has key `2025-01-05` |
| `DateKeys.NonDateLabel` | app.js:160-163 | a key without dashes or digits, such as `abc`, is labelled `NaN년 undefined월 undefined일` |
| `Weeks.WeekNumber` | app.js:175 | the week number is the ceiling of (day + first weekday) / 7, at least 1 |
| `Weeks.WeekOf` | app.js:165-178 | the bucket of a date carries that date's year and month |
| `Weeks.WeekKeyOfDateKey` | app.js:188-190 | a schedule key has a real week key exactly when it names a date, and that key is the bucket of the date |
| `Weeks.WeekQuery` | app.js:188-190 | the week key computed for a schedule key is the Invalid Date key `NaN-NaN-WNaN` exactly when the key names no date |
| `Weeks.WeekKeyOfDate` | app.js:188-190 | the key of a real date from year 100 on leads back to the week key of that date |
| `Weeks.WeekKey` | app.js:165-178 | a week key splits into the year, the padded month and `W` followed by the number, and is never the Invalid Date key |
| `Weeks.FirstOfMonthIsWeekOne` | app.js:165-178 | day 1 of every month is in week 1 |
| `Weeks.WeekNumberRange` | app.js:175 | days 1..31 with a first weekday 0..6 fall in weeks 1..6 |
| `Weeks.WeekIsGridRow` | app.js:299-316 | the week number is one more than the row of the day's cell in the 7-column month grid |
| `Weeks.WeekAdvancesOnSunday` | app.js:165-178 | within a month the week number goes up by one exactly when the next day is a Sunday |
| `Weeks.WeekKeyInjective` | app.js:177 | two week keys are equal exactly when they name the same year, month and week |
| `Weeks.WednesdayStartExample` | app.js:175 | when the first weekday is 3, day 1 is in week 1 and day 5 is in week 2 |
| `HolidayTable.IsJapanHoliday` | app.js:73-77 | a holiday label exists only for a year part present in the table, is non-empty and is one of that year's labels; `IsJapanHolidayOfDateKey` states the lookup on date keys |
| `HolidayTable.IsJapanHolidayOfDateKey` | app.js:73-77 | on a date key the lookup uses the year as written and the padded `MM-DD` |
| `HolidayTable.OtherYearsHaveNoHolidays` | app.js:30-77 | a key whose year part is not 2025 or 2026 is never a holiday |
| `HolidayTable.Entries2025AreDates` | app.js:31-51 | every 2025 entry is an `MM-DD` key of a real date of 2025, with a non-empty label |
| `HolidayTable.Entries2026AreDates` | app.js:52-70 | every 2026 entry is an `MM-DD` key of a real date of 2026, with a non-empty label |
| `HolidayTable.MonthDayRendering` | app.js:30-71 | an `MM-DD` key is the padded month and the padded day of the numbers it holds |
| `HolidayTable.TableYear` | app.js:30-71 | each year key of the table is the decimal rendering of the year it names |
| `HolidayTable.EntryKey` | app.js:73-77 | the date an `MM-DD` key names in a year has the date key `{year}-{MM-DD}` |
| `HolidayTable.EntryIsHoliday` | app.js:30-77 | in a year whose keys are real dates, every entry's date is reported as a holiday with that entry's label |
| `HolidayTable.TableEntryIsHoliday` | app.js:30-77 | every table entry names a real date whose date key is `{year}-{MM-DD}`, and that date is reported with the entry's label |
| `HolidayTable.NewYearIsHoliday` | app.js:32 | 2025-01-01 is labelled `元日 (설날)` |
| `HolidayTable.NewYearEntry` | app.js:32 | the 2025 table holds `元日 (설날)` under `01-01` |
| `HolidayTable.OrdinaryDayIsNotHoliday` | app.js:31-51 | 2025-01-02 is not a holiday |
| `HolidayTable.NoEntryOnJanuarySecond` | app.js:31-51 | the 2025 table has no entry for `01-02` |
| `HolidayTable.YearOutsideTableIsNotHoliday` | app.js:73-77 | 2030-01-01 is not a holiday because the year is absent |
| `Holidays.CollectHolidays` | app.js:212-220 | for any labelling of days, the loop lists exactly the labelled days of 1..lastDay, once each, in increasing order, with their labels |
| `Holidays.GetMonthHolidays` | app.js:208-223 | the result lists exactly the holiday days of the month, in increasing day order, each with its table label |
| `Holidays.ListsEveryEntry` | app.js:208-223 | every table entry appears in `getMonthHolidays` for its own year and month, with its day and label |
| `Store.EnsureDate` | app.js:154-158 | `ensureDate` adds the key, creates an empty record only when the key was absent, and changes no existing record |
| `Store.EnsureDateIdempotent` | app.js:154-158 | applying `ensureDate` twice is the same as once |
| `Store.TryAppend` | app.js:522-538 | the confirm step refuses a full shift (capacity error), then a name already present (duplicate error), and otherwise appends the name at the end, leaving the other shift and every other date unchanged |
| `Store.RefusedAppendChangesNothing` | app.js:522-536 | a refused confirmation leaves the schedule as it was |
| `Store.TryAppendPreservesWellFormed` | app.js:522-538 | a successful append keeps every shift within capacity and free of duplicates |
| `Store.TryAppendPreservesNoEmptyDays` | app.js:522-538 | a successful append leaves no empty day record |
| `Store.RemoveAt` | app.js:465-473 | removal at a valid index deletes exactly that element and keeps the others in order, while a past-the-end index removes nothing; the date stays only if a list is non-empty; other dates are untouched |
| `Store.RemovalMultiset` | app.js:466 | `splice(index, 1)` removes exactly one occurrence of the element |
| `Store.RemovalKeepsNoDuplicates` | app.js:466 | removing one element from a list without duplicates leaves no duplicates |
| `Store.RemovalKeepsAbsent` | app.js:466 | `splice(index, 1)` adds no name to the list |
| `Store.RemoveAtKeepsAbsent` | app.js:465-473 | a removal adds no name to any shift of any date |
| `Store.RemoveAtPreservesWellFormed` | app.js:465-473 | removal keeps every shift within capacity and free of duplicates |
| `Store.RemoveAtPreservesNoEmptyDays` | app.js:468-473 | after a removal no empty day record remains |
| `Store.AppendThenRemoveRestores` | app.js:466-473 | when the date had no record or a non-empty one, appending a name and removing it again restores the schedule, and a newly created day disappears |
| `Store.AppendThenRemoveDropsEmptyRecord` | app.js:466-473 | on a date holding an empty record, appending a name and removing it again deletes the record, so the schedule is the old one without that date |
| `Counts.AddNames` | app.js:194-200 | each roster name's count goes up by its number of occurrences in the list, and other names are ignored |
| `Counts.DayCount` | app.js:187-201 | a date contributes to a name's count for a week exactly when its week key (the Invalid Date key for a non-date) equals the queried one and the name is in one of its shifts |
| `Counts.AddDay` | app.js:192-201 | visiting one date raises each roster name's count by that date's contribution and keeps the set of names |
| `Counts.WeeklyCountSplit` | app.js:187-203 | the week total is one date's contribution plus the total over the other dates |
| `Counts.WeeklyShiftCounts` | app.js:180-206 | every roster member, and nobody else, has an entry equal to their occurrences in both shifts of the dates whose week key matches |
| `Counts.CountsAreReproducible` | app.js:180-206 | computing the counts twice without a mutation in between gives the same table |
| `Counts.WeekTotalPick` | app.js:187 | the total does not depend on the order in which the dates are visited |
| `Counts.WeeklyCountChangeAt` | app.js:187-203 | a change to one date changes a count only by that date's contribution |
| `Counts.EnsureDateKeepsCounts` | app.js:154-158 | creating an empty record changes no count |
| `Counts.AppendAddsOne` | app.js:538 | a successful append raises the appended name's count by one for the date's week and changes no other count |
| `Counts.DayCountAfterRemoval` | app.js:466 | after a removal, the day contributes one less for the removed name and the same for everyone else |
| `Counts.RemoveSubtractsOne` | app.js:465-473 | a removal lowers the removed name's count by one for the date's week, and a past-the-end index changes nothing |
| `Eligibility.MemberOptionsFor` | app.js:396-446 | there is one option per roster member in roster order, disabled exactly when the name is already in this shift or is not the exempt member and has 4 or more shifts that week |
| `Eligibility.Ineligible` | app.js:435 | a name already in the shift is always disabled, and so is a non-exempt member with 4 or more shifts that week; the exempt member, and anyone under four shifts that week, is disabled only when already in the shift |
| `Eligibility.OptionsFrom` | app.js:427-443 | the option loop produces one matching option per roster name, in order |
| `Eligibility.BuildOptions` | app.js:427-443 | the option loop builds one option per roster name, in roster order |
| `Eligibility.OptionDescribes` | app.js:431-435 | a member's option shows the member's weekly count and is disabled by the eligibility rule |
| `Eligibility.ExemptMemberIsNeverCapped` | app.js:435 | the exempt member is offered whatever the weekly count, unless already in the shift |
| `Eligibility.AppendOfferedKeepsCap` | app.js:435 | confirming an offered name keeps every non-exempt weekly count at 4 or less |
| `Eligibility.RemoveKeepsCap` | app.js:465-473 | a removal never breaks the weekly cap |
| `Eligibility.EnsureDateKeepsCap` | app.js:154-158 | creating an empty record never breaks the weekly cap |
| `Eligibility.FourthShiftClosesTheWeek` | app.js:435 | once a non-exempt member gets a fourth shift in a week, no dialog for a date with the same week key offers them again |
| `Eligibility.RemoveKeepsEligible` | app.js:461-473 | a removal never makes an eligible name ineligible: counts only fall and the shift lists only shrink |
| `Eligibility.EnsureDateKeepsEligible` | app.js:154-158 | creating an empty day record never makes an eligible name ineligible |
| `Workflow.AfterSave` | app.js:541-547 | a successful save keeps the local schedule; a failed save replaces it with the reloaded remote snapshot, or keeps it when the reload fails too |
| `Workflow.SaveNotice` | app.js:543-546 | the save-failure alert is raised exactly when the save failed |
| `Workflow.HandleAdd` | app.js:383-400 | the add button always runs `ensureDate`; it raises the capacity alert and keeps the pending dialog exactly when the shift is full, and otherwise raises nothing and opens the dialog for this shift |
| `Workflow.Confirm` | app.js:506-551 | without a pending dialog nothing happens; a missing name raises an alert; the capacity and duplicate alerts are raised exactly when the guarded append refuses for that reason, and change no data; a duplicate keeps the dialog open and every other outcome closes it; an accepted name gives the after-save schedule of the append and the failure alert exactly when the save failed; a saved success adds the date key, appends the name and leaves everything else unchanged |
| `Workflow.Cancel` | app.js:448-453 | closing the dialog clears the pending assignment and leaves the schedule unchanged |
| `Workflow.RemoveAssignment` | app.js:461-484 | an unconfirmed removal changes nothing; a removal never touches the pending dialog; a confirmed removal gives the after-save schedule of `RemoveAt` and raises the failure alert exactly when the save failed |
| `Workflow.StepPreservesWellFormed` | app.js:383-567 | every user event keeps capacity and no-duplicate invariants, provided a reloaded snapshot has them |
| `Workflow.StepPreservesCap` | app.js:383-567 | every user event keeps the weekly cap, provided a saved name was offered by the picker when the dialog opened, the picker's offers are still good on the current schedule, and a reloaded snapshot obeys the cap |
| `Workflow.StepKeepsOfferCurrent` | app.js:383-484 | every event that reloads nothing keeps each name the open picker offered eligible: the add button rebuilds the picker or adds only an empty record, and a removal, which leaves the dialog open, only lowers counts and shortens lists |
| `Workflow.OpeningMakesOffersCurrent` | app.js:396-446 | when the add button opens the dialog, the picker is built from the schedule as it then is |
| `Workflow.RunPreservesCap` | app.js:383-567 | any sequence of events without a reload, whose saves pick names the picker offered, keeps the weekly cap |
| `Workflow.SaveAndRemoveKeepNoEmptyDays` | app.js:461-551 | saving and removing keep a schedule free of empty day records, provided a reloaded snapshot has none |
| `Workflow.OpenThenCancelLeavesEmptyDay` | app.js:383-400 | opening the dialog on an absent date and then cancelling leaves an empty day record |
| `Workflow.FailedSaveAdoptsRemote` | app.js:541-550 | when the save fails and the reload succeeds, the session adopts the remote copy, even if that loses the append |

## Left out

- DOM rendering and event wiring are not modelled: `renderCalendar`, `renderWeeklyStats`, `renderHolidayList`, the modal, and the click and key listeners. This is presentation code. The option texts (`(주: N회)`, the over-limit warning) are left out with it.
- `fetchScheduleFromServer`, `persistScheduleToServer`, `refreshScheduleState` and `initializeScheduleBoard` are network I/O. A save is modelled only by its outcome (`SaveResult`), and the reload as "the schedule becomes the remote snapshot". The initial load and the normalisation of a non-object payload to `{}` are not modelled.
- server.py is not part of this model. It is file storage behind the two HTTP calls.
- Print, share link, clipboard, notifications, and month seeding from the URL are left out. They are browser APIs with no schedule logic.
- `DateKeys.DateOfKey`: JavaScript `Date` rolls an out-of-range month or day over into the next month, so `2025-13-01` counts as 2026-01-01. The model treats such keys as naming no date, so they count toward the Invalid Date week key `NaN-NaN-WNaN` instead of a real week. `getDateKey` never produces them.
- `Text.Number`: JavaScript `Number` also accepts whitespace, signs, decimals, exponents and hex. The model reads them as NaN. It also reads every digit run as its exact value, while JavaScript numbers are doubles: a run above 2^53 is rounded (`Number("9007199254740993")` is 9007199254740992), and a run of about 309 digits or more gives `Infinity`. Date-key parts are short digit runs, so keys built by `getDateKey` never reach these values.
- `Text.Show`: the model renders every natural as plain digits. JavaScript's `String(n)` switches to exponent notation from 1e21 (`"1e+21"`), so `formatDateLabel` would render such a part differently.
- `Workflow.StepPreservesCap`: the stale-picker path is not covered. A failed save whose reload succeeds, made by a removal while the dialog stays open (app.js:476-480), can bring in a remote copy on which a name the picker offered already has four shifts that week. The save button does not re-check the weekly cap (app.js:522-538), so it appends the name and the cap breaks. The model proves the cap only while no reload has happened since the dialog opened.
- Years before 1 and negative years are not modelled. Local time zones are not modelled either: dates are calendar dates.
- The schedule values are typed in the model. A remote document with a missing shift list or a non-object day record (which the code handles with `|| []` and the truthiness test in `ensureDate`) is not represented.
- `Counts.WeeklyShiftCounts`: object prototype keys are not modelled. An assigned name that is not on the roster but names an inherited property, such as `constructor` or `toString`, passes the `counts[name] !== undefined` test (app.js:197), so `counts[name]++` adds an own entry holding `NaN`. The model counts roster names only.
- `DateKeys.DateOfKey`: the JavaScript `Date` range is not modelled. After +275760-09-13 `new Date` gives an Invalid Date, whose week key is `NaN-NaN-WNaN`; the model treats every large year as a real date.
- Interleaving inside one session across an awaited save or reload (app.js:476-480, 542-546) is not modelled: each event runs to completion before the next. So the model does not show a new dialog opened during a save being closed by the late `closeAssignmentModal()` (app.js:549), a stale removal chip clicked while a save is in flight, or a reload overwriting a change made during the await.
- Cross-session concurrency (last full-document save wins) is outside a single session's model. It shows up only through the arbitrary remote snapshot a failed save may reload.

=== FILE: calendar.dfy ===
/**
 * The proleptic Gregorian calendar that JavaScript's `Date` implements,
 * reduced to what the schedule needs: leap years, month lengths and the
 * weekday (0 = Sunday .. 6 = Saturday) that `getDay()` reports.
 * Months are 1-based here; JavaScript's `getMonth()` is this minus one.
 */
module Calendar {

  datatype Date = Date(year: nat, month: nat, day: nat)

  predicate IsLeapYear(y: nat) {
    y % 4 == 0 && (y % 100 != 0 || y % 400 == 0)
  }

  /** `new Date(year, month, 0).getDate()` for a 1-based month. */
  function DaysInMonth(y: nat, m: nat): (n: nat)
    requires 1 <= m <= 12
    ensures 28 <= n <= 31
    ensures n == 29 <==> m == 2 && IsLeapYear(y)
  {
    if m == 2 then (if IsLeapYear(y) then 29 else 28)
    else if m == 4 || m == 6 || m == 9 || m == 11 then 30
    else 31
  }

  /** A real calendar date, from year 1 on. */
  predicate ValidDate(dt: Date) {
    dt.year >= 1 && 1 <= dt.month <= 12 && 1 <= dt.day <= DaysInMonth(dt.year, dt.month)
  }

  /** Days of the year that precede the first of month `m`, as a fixed table. */
  function DaysBeforeMonth(y: nat, m: nat): nat
    requires 1 <= m <= 12
  {
    [0, 31, 59, 90, 120, 151, 181, 212, 243, 273, 304, 334][m - 1]
      + (if m > 2 && IsLeapYear(y) then 1 else 0)
  }

  /** Days elapsed from 0001-01-01 to `dt`. */
  function DayNumber(dt: Date): nat
    requires ValidDate(dt)
  {
    var p := dt.year - 1;
    365 * p + p / 4 - p / 100 + p / 400 + DaysBeforeMonth(dt.year, dt.month) + dt.day - 1
  }

  /** `getDay()`: 0001-01-01 was a Monday in the proleptic Gregorian calendar. */
  function Weekday(dt: Date): (w: nat)
    requires ValidDate(dt)
    ensures w < 7
  {
    (DayNumber(dt) + 1) % 7
  }

  /** The weekday of the first of a month, `new Date(year, month, 1).getDay()`. */
  function FirstWeekday(y: nat, m: nat): (w: nat)
    requires y >= 1 && 1 <= m <= 12
    ensures w < 7
  {
    Weekday(Date(y, m, 1))
  }

  /** The calendar day after `dt`. */
  function NextDay(dt: Date): Date
    requires ValidDate(dt)
  {
    if dt.day < DaysInMonth(dt.year, dt.month) then Date(dt.year, dt.month, dt.day + 1)
    else if dt.month < 12 then Date(dt.year, dt.month + 1, 1)
    else Date(dt.year + 1, 1, 1)
  }

  /** The month-start table agrees with the month lengths. */
  lemma DaysBeforeNextMonth(y: nat, m: nat)
    requires 1 <= m < 12
    ensures DaysBeforeMonth(y, m + 1) == DaysBeforeMonth(y, m) + DaysInMonth(y, m)
  {
  }

  lemma DaysBeforeDecember(y: nat)
    ensures DaysBeforeMonth(y, 12) + DaysInMonth(y, 12) == (if IsLeapYear(y) then 366 else 365)
  {
  }

  /** Counting multiples of `k`: stepping from `y - 1` to `y` adds one exactly when `k` divides `y`. */
  lemma MultiplesStep(y: int, k: int)
    requires y >= 1 && k >= 1
    ensures y / k - (y - 1) / k == (if y % k == 0 then 1 else 0)
  {
    var q := (y - 1) / k;
    var r := (y - 1) % k;
    assert y - 1 == q * k + r && 0 <= r < k;
    if r == k - 1 {
      assert y == (q + 1) * k;
      DivModUnique(y, k, q + 1, 0);
    } else {
      assert y == q * k + (r + 1);
      DivModUnique(y, k, q, r + 1);
    }
  }

  lemma DivModUnique(y: int, k: int, q: int, r: int)
    requires k >= 1 && 0 <= r < k && y == q * k + r
    ensures y / k == q && y % k == r
  {
    var q' := y / k;
    var r' := y % k;
    assert y == q' * k + r' && 0 <= r' < k;
    assert (q - q') * k == r' - r;
    assert (q' - q) * k == r - r';
    if q > q' {
      MulAtLeast(q - q', k);
    } else if q < q' {
      MulAtLeast(q' - q, k);
    }
  }

  lemma {:induction false} MulAtLeast(d: int, k: int)
    requires d >= 1 && k >= 0
    ensures d * k >= k
  {
    if d > 1 {
      MulAtLeast(d - 1, k);
      assert d * k == (d - 1) * k + k;
    }
  }

  lemma LeapByMultiples(y: nat)
    requires y >= 1
    ensures (if IsLeapYear(y) then 1 else 0)
         == (if y % 4 == 0 then 1 else 0) - (if y % 100 == 0 then 1 else 0) + (if y % 400 == 0 then 1 else 0)
  {
    if y % 400 == 0 {
      var t := y / 400;
      assert y == 100 * (4 * t);
      DivModUnique(y, 100, 4 * t, 0);
    }
    if y % 100 == 0 {
      var t := y / 100;
      assert y == 4 * (25 * t);
      DivModUnique(y, 4, 25 * t, 0);
    }
  }

  /** The whole year `y` has 365 or 366 days, as the leap rule says. */
  lemma YearLength(y: nat)
    requires y >= 1
    ensures DayNumber(Date(y + 1, 1, 1)) == DayNumber(Date(y, 12, 31)) + 1
  {
    MultiplesStep(y, 4);
    MultiplesStep(y, 100);
    MultiplesStep(y, 400);
    LeapByMultiples(y);
    DaysBeforeDecember(y);
  }

  /** Consecutive dates have consecutive day numbers, across month and year ends. */
  lemma NextDayNumber(dt: Date)
    requires ValidDate(dt)
    ensures ValidDate(NextDay(dt))
    ensures DayNumber(NextDay(dt)) == DayNumber(dt) + 1
  {
    if dt.day == DaysInMonth(dt.year, dt.month) {
      if dt.month < 12 {
        DaysBeforeNextMonth(dt.year, dt.month);
      } else {
        YearLength(dt.year);
      }
    }
  }

  /** The weekday advances by one each day, wrapping from Saturday to Sunday. */
  lemma WeekdayOfNextDay(dt: Date)
    requires ValidDate(dt)
    ensures ValidDate(NextDay(dt))
    ensures Weekday(NextDay(dt)) == (Weekday(dt) + 1) % 7
  {
    NextDayNumber(dt);
    ModShift(DayNumber(dt) + 1, 1);
  }

  /** Within a month the weekday of day `d` is fixed by the weekday of the first. */
  lemma WeekdayInMonth(dt: Date)
    requires ValidDate(dt)
    ensures Weekday(dt) == (FirstWeekday(dt.year, dt.month) + dt.day - 1) % 7
  {
    var n1 := DayNumber(Date(dt.year, dt.month, 1));
    assert DayNumber(dt) == n1 + dt.day - 1;
    ModShift(n1 + 1, dt.day - 1);
  }

  lemma ModShift(a: nat, b: nat)
    ensures (a + b) % 7 == (a % 7 + b) % 7
  {
    DivModUnique(a, 7, a / 7, a % 7);
    DivModUnique(a + b, 7, (a + b) / 7, (a + b) % 7);
    var q := (a % 7 + b) / 7;
    var r := (a % 7 + b) % 7;
    assert a + b == (a / 7 + q) * 7 + r;
    DivModUnique(a + b, 7, a / 7 + q, r);
  }

  /** 1 January 2025, the first holiday in the table, was a Wednesday. */
  lemma NewYear2025IsWednesday()
    ensures Weekday(Date(2025, 1, 1)) == 3
  {
  }
}

=== FILE: counts.dfy ===
/**
 * `getWeeklyShiftCounts(weekKey)`: for every roster member, the number of
 * shifts they hold on the dates whose week key equals `weekKey`, over the
 * whole schedule. Names that are not on the roster are not counted.
 */
module Counts {
  import opened Wrappers
  import opened Store
  import opened Weeks

  /**
   * What one date contributes to `name`'s count for week `wk`: its
   * occurrences in both shifts when the week key rendered for the date key
   * is `wk`. A key that names no date renders the Invalid Date week key,
   * so it contributes to that query only.
   */
  function DayCount(s: Schedule, key: string, wk: string, name: string): (r: nat)
    ensures r > 0 ==> key in s && WeekQuery(key) == wk
    ensures r > 0 <==> WeekQuery(key) == wk && (name in Taken(s, key, Morning) || name in Taken(s, key, Afternoon))
  {
    if WeekQuery(key) == wk
    then multiset(Taken(s, key, Morning))[name] + multiset(Taken(s, key, Afternoon))[name]
    else 0
  }

  /** The sum of `DayCount` over a set of date keys, in no particular order. */
  ghost function WeekTotal(s: Schedule, keys: set<string>, wk: string, name: string): nat
    decreases keys
  {
    if keys == {} then 0
    else
      var k :| k in keys;
      DayCount(s, k, wk, name) + WeekTotal(s, keys - {k}, wk, name)
  }

  /** The count `getWeeklyShiftCounts` should report for `name`. */
  ghost function WeeklyCount(s: Schedule, wk: string, name: string): nat {
    WeekTotal(s, s.Keys, wk, name)
  }

  /** The sum does not depend on which key is taken out first. */
  lemma {:induction false} WeekTotalPick(s: Schedule, keys: set<string>, wk: string, name: string, k: string)
    requires k in keys
    ensures WeekTotal(s, keys, wk, name) == DayCount(s, k, wk, name) + WeekTotal(s, keys - {k}, wk, name)
    decreases keys
  {
    var j :| j in keys && WeekTotal(s, keys, wk, name) == DayCount(s, j, wk, name) + WeekTotal(s, keys - {j}, wk, name);
    if j != k {
      WeekTotalPick(s, keys - {j}, wk, name, k);
      WeekTotalPick(s, keys - {k}, wk, name, j);
      assert keys - {j} - {k} == keys - {k} - {j};
    }
  }

  /** Two schedules that agree day by day on `keys` have the same sum over `keys`. */
  lemma {:induction false} WeekTotalFrame(s: Schedule, t: Schedule, keys: set<string>, wk: string, name: string)
    requires forall k :: k in keys ==> DayCount(s, k, wk, name) == DayCount(t, k, wk, name)
    ensures WeekTotal(s, keys, wk, name) == WeekTotal(t, keys, wk, name)
    decreases keys
  {
    if keys != {} {
      var k :| k in keys;
      WeekTotalPick(s, keys, wk, name, k);
      WeekTotalPick(t, keys, wk, name, k);
      WeekTotalFrame(s, t, keys - {k}, wk, name);
    }
  }

  /** A date contributes the same to two schedules that hold the same record for it. */
  lemma DayCountSameRecord(s: Schedule, t: Schedule, k: string, wk: string, name: string)
    requires k in s && k in t && s[k] == t[k]
    ensures DayCount(s, k, wk, name) == DayCount(t, k, wk, name)
  {
    assert Taken(s, k, Morning) == Taken(t, k, Morning);
    assert Taken(s, k, Afternoon) == Taken(t, k, Afternoon);
  }

  /** A date without a record contributes nothing. */
  lemma DayCountAbsent(s: Schedule, k: string, wk: string, name: string)
    requires k !in s
    ensures DayCount(s, k, wk, name) == 0
  {
    assert Taken(s, k, Morning) == [] && Taken(s, k, Afternoon) == [];
  }

  /** The whole-schedule count is one date's contribution plus the sum over the other dates. */
  lemma WeeklyCountSplit(s: Schedule, key: string, wk: string, name: string)
    ensures WeeklyCount(s, wk, name) == DayCount(s, key, wk, name) + WeekTotal(s, s.Keys - {key}, wk, name)
  {
    if key in s {
      WeekTotalPick(s, s.Keys, wk, name, key);
    } else {
      assert s.Keys - {key} == s.Keys;
      DayCountAbsent(s, key, wk, name);
    }
  }

  /** The sum over the whole schedule changes only by what the one changed day contributes. */
  lemma WeeklyCountChangeAt(s: Schedule, t: Schedule, key: string, wk: string, name: string)
    requires forall k :: k != key ==> (k in s <==> k in t)
    requires forall k :: k in s && k != key ==> s[k] == t[k]
    ensures WeeklyCount(t, wk, name) + DayCount(s, key, wk, name)
         == WeeklyCount(s, wk, name) + DayCount(t, key, wk, name)
  {
    var rest := s.Keys - {key};
    assert t.Keys - {key} == rest;
    forall k | k in rest
      ensures DayCount(s, k, wk, name) == DayCount(t, k, wk, name)
    {
      DayCountSameRecord(s, t, k, wk, name);
    }
    WeekTotalFrame(s, t, rest, wk, name);
    WeeklyCountSplit(s, key, wk, name);
    WeeklyCountSplit(t, key, wk, name);
  }

  /** Adds one to the count of every roster name in `names`, once per occurrence. */
  method AddNames(counts: map<string, nat>, names: seq<string>) returns (r: map<string, nat>)
    ensures r.Keys == counts.Keys
    ensures forall n :: n in r ==> r[n] == counts[n] + multiset(names)[n]
  {
    r := counts;
    var i := 0;
    while i < |names|
      invariant 0 <= i <= |names|
      invariant r.Keys == counts.Keys
      invariant forall n :: n in r ==> r[n] == counts[n] + multiset(names[..i])[n]
    {
      assert names[..i + 1] == names[..i] + [names[i]];
      if names[i] in r {
        r := r[names[i] := r[names[i]] + 1];
      }
      i := i + 1;
    }
    assert names[..i] == names;
  }

  /** One step of the loop over the schedule: add the date's names when its week key matches. */
  method AddDay(counts: map<string, nat>, s: Schedule, key: string, wk: string) returns (r: map<string, nat>)
    requires key in s
    ensures r.Keys == counts.Keys
    ensures forall n :: n in r ==> r[n] == counts[n] + DayCount(s, key, wk, n)
  {
    r := counts;
    if WeekQuery(key) == wk {
      r := AddNames(r, s[key].morning);
      r := AddNames(r, s[key].afternoon);
    }
  }

  /** `getWeeklyShiftCounts(weekKey)` over the whole schedule. */
  method WeeklyShiftCounts(s: Schedule, wk: string) returns (counts: map<string, nat>)
    ensures forall n :: n in counts <==> n in Members
    ensures forall n :: n in counts ==> counts[n] == WeeklyCount(s, wk, n)
  {
    counts := map n | n in Members :: 0;
    var remaining := s.Keys;
    while remaining != {}
      invariant remaining <= s.Keys
      invariant forall n :: n in counts <==> n in Members
      invariant forall n :: n in counts ==>
        counts[n] + WeekTotal(s, remaining, wk, n) == WeeklyCount(s, wk, n)
      decreases remaining
    {
      var key :| key in remaining;
      counts := AddDay(counts, s, key, wk);
      forall n | n in counts
        ensures counts[n] + WeekTotal(s, remaining - {key}, wk, n) == WeeklyCount(s, wk, n)
      {
        WeekTotalPick(s, remaining, wk, n, key);
      }
      remaining := remaining - {key};
    }
  }

  /** Counting twice with no mutation in between gives the same table. */
  method CountsAreReproducible(s: Schedule, wk: string) returns (first: map<string, nat>, second: map<string, nat>)
    ensures first == second
    ensures forall n :: n in first <==> n in Members
  {
    first := WeeklyShiftCounts(s, wk);
    second := WeeklyShiftCounts(s, wk);
  }

  /** `ensureDate` never changes a count: the day it may add is empty. */
  lemma EnsureDateKeepsCounts(s: Schedule, key: string, wk: string, name: string)
    ensures WeeklyCount(EnsureDate(s, key), wk, name) == WeeklyCount(s, wk, name)
  {
    WeeklyCountChangeAt(s, EnsureDate(s, key), key, wk, name);
  }

  /**
   * A successful append raises exactly the appended name's count, and only
   * for the week the date belongs to.
   */
  lemma AppendAddsOne(s: Schedule, key: string, sh: Shift, name: string, wk: string, other: string)
    requires TryAppend(s, key, sh, name).Success?
    ensures WeeklyCount(TryAppend(s, key, sh, name).value, wk, other)
         == WeeklyCount(s, wk, other) + (if other == name && WeekQuery(key) == wk then 1 else 0)
  {
    var t := TryAppend(s, key, sh, name).value;
    WeeklyCountChangeAt(s, t, key, wk, other);
    assert Taken(t, key, sh) == Taken(s, key, sh) + [name];
    assert multiset(Taken(t, key, sh)) == multiset(Taken(s, key, sh)) + multiset{name};
    assert Taken(t, key, sh.Other()) == Taken(s, key, sh.Other());
  }

  /** What the touched day contributes after one of its entries is taken out. */
  lemma DayCountAfterRemoval(s: Schedule, t: Schedule, key: string, sh: Shift, index: nat, wk: string, other: string)
    requires index < |Taken(s, key, sh)| && |Taken(t, key, sh)| + 1 == |Taken(s, key, sh)|
    requires Taken(s, key, sh) == Taken(t, key, sh)[..index] + [Taken(s, key, sh)[index]] + Taken(t, key, sh)[index..]
    requires Taken(t, key, sh.Other()) == Taken(s, key, sh.Other())
    ensures DayCount(s, key, wk, other)
         == DayCount(t, key, wk, other)
          + (if other == Taken(s, key, sh)[index] && WeekQuery(key) == wk then 1 else 0)
  {
    var l := Taken(s, key, sh);
    RemovalMultiset(l, Taken(t, key, sh), index);
    assert multiset(l)[other] == multiset(Taken(t, key, sh))[other] + (if other == l[index] then 1 else 0);
    if sh.Morning? {
      assert sh.Other() == Afternoon;
    } else {
      assert sh.Other() == Morning;
    }
  }

  /**
   * A removal lowers exactly the removed name's count by one in the date's
   * week; an index past the end changes no count.
   */
  lemma RemoveSubtractsOne(s: Schedule, key: string, sh: Shift, index: nat, wk: string, other: string)
    ensures index < |Taken(s, key, sh)| ==>
      WeeklyCount(RemoveAt(s, key, sh, index), wk, other)
        + (if other == Taken(s, key, sh)[index] && WeekQuery(key) == wk then 1 else 0)
      == WeeklyCount(s, wk, other)
    ensures index >= |Taken(s, key, sh)| ==>
      WeeklyCount(RemoveAt(s, key, sh, index), wk, other) == WeeklyCount(s, wk, other)
  {
    var t := RemoveAt(s, key, sh, index);
    WeeklyCountChangeAt(s, t, key, wk, other);
    if index < |Taken(s, key, sh)| {
      DayCountAfterRemoval(s, t, key, sh, index, wk, other);
    } else {
      assert Taken(t, key, sh) == Taken(s, key, sh);
      assert Taken(t, key, sh.Other()) == Taken(s, key, sh.Other());
      assert {Morning, Afternoon} == {sh, sh.Other()};
      assert DayCount(t, key, wk, other) == DayCount(s, key, wk, other);
    }
  }
}

=== FILE: datekeys.dfy ===
/**
 * Date keys: the canonical `YYYY-MM-DD` strings that index the schedule
 * (`getDateKey`), and the `split('-').map(Number)` idiom that takes them
 * apart again (`formatDateLabel`, `getWeeklyShiftCounts`, `openAssignmentModal`).
 */
module DateKeys {
  import opened Wrappers
  import opened Text
  import opened Calendar

  /**
   * The year `new Date(y, m, d)` actually builds: the constructor reads a
   * year from 0 to 99 as 1900 to 1999.
   */
  function JsYear(y: nat): (r: nat)
    ensures r >= 100
    ensures y <= 99 ==> r == 1900 + y
    ensures y >= 100 ==> r == y
  {
    if y <= 99 then 1900 + y else y
  }

  /**
   * `getDateKey(date)`: the year as written, month and day padded to two
   * digits. The key splits back into those three parts, and parsing it
   * gives the date back.
   */
  function DateKey(dt: Date): (key: string)
    ensures Split(key, '-') == [Show(dt.year), Pad2(dt.month), Pad2(dt.day)]
    ensures ParseDateKey(key) == Some(dt)
  {
    var y, m, d := Show(dt.year), Pad2(dt.month), Pad2(dt.day);
    DigitsHaveNoSep(y, '-');
    DigitsHaveNoSep(m, '-');
    DigitsHaveNoSep(d, '-');
    SplitThree(y, m, d, '-');
    NumberOfShow(dt.year);
    NumberOfPad2(dt.month);
    NumberOfPad2(dt.day);
    y + "-" + m + "-" + d
  }

  /**
   * `const [y, m, d] = key.split('-').map(Number)`: None when a part is
   * missing (`undefined`) or is not a number (NaN); parts after the third
   * are ignored, as array destructuring ignores them.
   */
  function ParseDateKey(key: string): (r: Option<Date>)
    ensures r.Some? <==>
      var parts := Split(key, '-');
      |parts| >= 3 && AllDigits(parts[0]) && AllDigits(parts[1]) && AllDigits(parts[2])
  {
    var parts := Split(key, '-');
    if |parts| < 3 then None
    else match (Number(parts[0]), Number(parts[1]), Number(parts[2]))
      case (Some(y), Some(m), Some(d)) => Some(Date(y, m, d))
      case _ => None
  }

  /** `new Date(y, m - 1, d)` for in-range parts: only the year is adjusted. */
  function JsDate(parsed: Date): Date {
    Date(JsYear(parsed.year), parsed.month, parsed.day)
  }

  /**
   * `new Date(y, m - 1, d)` for a parsed key, when that names a real date.
   * A key that does not parse, or whose month or day is out of range, gives None.
   */
  function DateOfKey(key: string): (r: Option<Date>)
    ensures r.Some? <==> ParseDateKey(key).Some? && ValidDate(JsDate(ParseDateKey(key).value))
    ensures r.Some? ==> ValidDate(r.value) && r.value == JsDate(ParseDateKey(key).value)
  {
    match ParseDateKey(key)
    case Some(dt) =>
      var built := JsDate(dt);
      if ValidDate(built) then Some(built) else None
    case None => None
  }

  /** How `${v}` renders destructured part `i`: its value, `NaN`, or `undefined` when the key has no such part. */
  function PartLabel(parts: seq<string>, i: nat): string {
    if i >= |parts| then "undefined"
    else match Number(parts[i])
      case Some(v) => Show(v)
      case None => "NaN"
  }

  /**
   * `formatDateLabel(key)`: `{y}년 {m}월 {d}일`. A parsed key shows its
   * numbers unpadded; a key with fewer than three parts ends in
   * `undefined일`, and one whose year part is not a number starts with `NaN`.
   */
  function FormatDateLabel(key: string): (text: string)
    ensures ParseDateKey(key).Some? ==>
      var p := ParseDateKey(key).value;
      text == Show(p.year) + "년 " + Show(p.month) + "월 " + Show(p.day) + "일"
    ensures |Split(key, '-')| < 3 ==> |text| >= 10 && text[|text| - 10..] == "undefined일"
    ensures !AllDigits(Split(key, '-')[0]) ==> |text| >= 4 && text[..4] == "NaN년"
  {
    var parts := Split(key, '-');
    var built := PartLabel(parts, 0) + "년 " + PartLabel(parts, 1) + "월 " + PartLabel(parts, 2) + "일";
    assert built == PartLabel(parts, 0) + ("년 " + PartLabel(parts, 1) + "월 " + PartLabel(parts, 2) + "일");
    built
  }

  /** Distinct dates get distinct keys, so a key identifies its date. */
  lemma DateKeyInjective(a: Date, b: Date)
    ensures DateKey(a) == DateKey(b) <==> a == b
  {
  }

  /** The key of a real date from year 100 on leads back to that date. */
  lemma DateOfDateKey(dt: Date)
    requires ValidDate(dt) && dt.year >= 100
    ensures DateOfKey(DateKey(dt)) == Some(dt)
  {
  }

  /** The label of a key drops the zero padding but keeps every number. */
  lemma FormatDateLabelOfKey(dt: Date)
    ensures FormatDateLabel(DateKey(dt)) == Show(dt.year) + "년 " + Show(dt.month) + "월 " + Show(dt.day) + "일"
  {
  }

  /** A date whose parts render as `y`, `m`, `d` has the key `y-m-d`. */
  lemma KeyOfParts(dt: Date, y: string, m: string, d: string)
    requires Show(dt.year) == y && Pad2(dt.month) == m && Pad2(dt.day) == d
    ensures DateKey(dt) == y + "-" + m + "-" + d
  {
  }

  /** The renderings the worked example needs. */
  lemma ExampleParts()
    ensures Show(2025) == "2025" && Pad2(1) == "01" && Pad2(5) == "05"
  {
  }

  /** 5 January 2025 has the key `2025-01-05`. */
  lemma DateKeyExample()
    ensures DateKey(Date(2025, 1, 5)) == "2025-01-05"
  {
    ExampleParts();
    KeyOfParts(Date(2025, 1, 5), "2025", "01", "05");
  }

  /** A key that is not a date renders as `NaN년 undefined월 undefined일`. */
  lemma NonDateLabel()
    ensures FormatDateLabel("abc") == "NaN년 undefined월 undefined일"
  {
    assert forall i :: 0 <= i < |"abc"| ==> "abc"[i] != '-';
    SplitNoSep("abc", '-');
    assert !IsDigit("abc"[0]);
  }
}

=== FILE: eligibility.dfy ===
/**
 * The member picker of the assignment dialog (`populateMemberOptions`):
 * which roster names are offered, and the weekly cap of four shifts that
 * the disabled options enforce for everyone but the exempt member.
 */
module Eligibility {
  import opened Wrappers
  import opened Store
  import opened Weeks
  import opened Counts

  /** The weekly cap: a non-exempt member with this many shifts in a week is not offered more. */
  const WeeklyLimit: nat := 4

  /** The rule for a disabled option: already in this shift, or capped for the week. */
  predicate Ineligible(name: string, taken: seq<string>, weeklyCount: nat): (r: bool)
    ensures name in taken ==> r
    ensures name != Exempt && weeklyCount >= WeeklyLimit ==> r
    ensures name == Exempt ==> (r <==> name in taken)
    ensures weeklyCount < WeeklyLimit ==> (r <==> name in taken)
  {
    name in taken || (name != Exempt && weeklyCount >= WeeklyLimit)
  }

  /** One `<option>` of the picker: the name, its weekly count and whether it is disabled. */
  datatype MemberOption = MemberOption(name: string, weeklyCount: nat, disabled: bool)

  /** A name the dialog for (`key`, `sh`) offers on schedule `s`. */
  ghost predicate Eligible(s: Schedule, key: string, sh: Shift, name: string) {
    !Ineligible(name, Taken(s, key, sh), WeeklyCount(s, WeekQuery(key), name))
  }

  /** Option `o` is the one the dialog for (`key`, `sh`) shows for `name`. */
  ghost predicate Describes(s: Schedule, key: string, sh: Shift, o: MemberOption, name: string) {
    && o.name == name
    && o.weeklyCount == WeeklyCount(s, WeekQuery(key), name)
    && (o.disabled <==> !Eligible(s, key, sh, name))
  }

  /** No non-exempt roster member holds more than four shifts in any week. */
  ghost predicate CapHolds(s: Schedule) {
    forall wk, n :: n in Members && n != Exempt ==> WeeklyCount(s, wk, n) <= WeeklyLimit
  }

  /**
   * `openAssignmentModal` followed by `populateMemberOptions`: one option
   * per roster member, in roster order, disabled exactly when the member
   * is already in the shift or has reached the weekly cap.
   */
  method MemberOptionsFor(s: Schedule, key: string, sh: Shift) returns (options: seq<MemberOption>)
    ensures |options| == |Members|
    ensures forall i :: 0 <= i < |options| ==> Describes(s, key, sh, options[i], Members[i])
  {
    var ensured := EnsureDate(s, key);
    var weeklyCounts := WeeklyShiftCounts(ensured, WeekQuery(key));
    options := OptionsFrom(s, key, sh, ensured[key].Get(sh), weeklyCounts, Members);
  }

  /** `populateMemberOptions` over a roster: the options describe the roster names, in order. */
  method OptionsFrom(s: Schedule, key: string, sh: Shift, takenList: seq<string>,
                     weeklyCounts: map<string, nat>, roster: seq<string>) returns (options: seq<MemberOption>)
    requires takenList == Taken(s, key, sh)
    requires forall n :: n in roster ==>
      (n in weeklyCounts && weeklyCounts[n] == WeeklyCount(EnsureDate(s, key), WeekQuery(key), n))
    ensures |options| == |roster|
    ensures forall i :: 0 <= i < |options| ==> Describes(s, key, sh, options[i], roster[i])
  {
    options := BuildOptions(takenList, weeklyCounts, roster);
    forall j | 0 <= j < |options|
      ensures Describes(s, key, sh, options[j], roster[j])
    {
      assert roster[j] in roster;
      OptionDescribes(s, key, sh, takenList, weeklyCounts, roster[j]);
    }
  }

  /** The loop of `populateMemberOptions`: one option per roster name, in order. */
  method BuildOptions(takenList: seq<string>, weeklyCounts: map<string, nat>, roster: seq<string>)
    returns (options: seq<MemberOption>)
    requires forall n :: n in roster ==> n in weeklyCounts
    ensures |options| == |roster|
    ensures forall j :: 0 <= j < |options| ==> options[j] == OptionOf(roster[j], takenList, weeklyCounts)
  {
    options := [];
    var i := 0;
    while i < |roster|
      invariant 0 <= i <= |roster|
      invariant |options| == i
      invariant forall j :: 0 <= j < i ==> options[j] == OptionOf(roster[j], takenList, weeklyCounts)
    {
      assert roster[i] in roster;
      options := options + [OptionOf(roster[i], takenList, weeklyCounts)];
      i := i + 1;
    }
  }

  /** The option built for one name: its weekly count, disabled by the rule. */
  function OptionOf(name: string, takenList: seq<string>, weeklyCounts: map<string, nat>): MemberOption
    requires name in weeklyCounts
  {
    MemberOption(name, weeklyCounts[name], Ineligible(name, takenList, weeklyCounts[name]))
  }

  /**
   * The option for one roster name, built from counts taken on the ensured
   * schedule, shows the member's weekly count and is disabled exactly when
   * the member is not eligible.
   */
  lemma OptionDescribes(s: Schedule, key: string, sh: Shift, takenList: seq<string>,
                        weeklyCounts: map<string, nat>, name: string)
    requires takenList == Taken(s, key, sh) && name in weeklyCounts
    requires weeklyCounts[name] == WeeklyCount(EnsureDate(s, key), WeekQuery(key), name)
    ensures Describes(s, key, sh, OptionOf(name, takenList, weeklyCounts), name)
  {
    EnsureDateKeepsCounts(s, key, WeekQuery(key), name);
  }

  /** The exempt member is offered whatever their weekly count, unless already in the shift. */
  lemma ExemptMemberIsNeverCapped(s: Schedule, key: string, sh: Shift)
    requires Exempt !in Taken(s, key, sh)
    ensures Eligible(s, key, sh, Exempt)
  {
  }

  /** Confirming a name the dialog offered keeps every non-exempt weekly count at four or less. */
  lemma AppendOfferedKeepsCap(s: Schedule, key: string, sh: Shift, name: string)
    requires CapHolds(s) && Eligible(s, key, sh, name)
    requires TryAppend(s, key, sh, name).Success?
    ensures CapHolds(TryAppend(s, key, sh, name).value)
  {
    var t := TryAppend(s, key, sh, name).value;
    forall wk, n | n in Members && n != Exempt
      ensures WeeklyCount(t, wk, n) <= WeeklyLimit
    {
      AppendAddsOne(s, key, sh, name, wk, n);
      assert WeeklyCount(s, wk, n) <= WeeklyLimit;
    }
  }

  /** Removing an assignment never raises a count, so the cap survives it. */
  lemma RemoveKeepsCap(s: Schedule, key: string, sh: Shift, index: nat)
    requires CapHolds(s)
    ensures CapHolds(RemoveAt(s, key, sh, index))
  {
    forall wk, n | n in Members && n != Exempt
      ensures WeeklyCount(RemoveAt(s, key, sh, index), wk, n) <= WeeklyLimit
    {
      RemoveSubtractsOne(s, key, sh, index, wk, n);
      assert WeeklyCount(s, wk, n) <= WeeklyLimit;
    }
  }

  /** Creating an empty day record does not touch the cap. */
  lemma EnsureDateKeepsCap(s: Schedule, key: string)
    requires CapHolds(s)
    ensures CapHolds(EnsureDate(s, key))
  {
    forall wk, n | n in Members && n != Exempt
      ensures WeeklyCount(EnsureDate(s, key), wk, n) <= WeeklyLimit
    {
      EnsureDateKeepsCounts(s, key, wk, n);
      assert WeeklyCount(s, wk, n) <= WeeklyLimit;
    }
  }

  /** A removal never withdraws an offer: a name eligible before it is eligible after it. */
  lemma RemoveKeepsEligible(s: Schedule, key: string, sh: Shift, name: string, k2: string, sh2: Shift, i2: nat)
    requires Eligible(s, key, sh, name)
    ensures Eligible(RemoveAt(s, k2, sh2, i2), key, sh, name)
  {
    RemoveSubtractsOne(s, k2, sh2, i2, WeekQuery(key), name);
    RemoveAtKeepsAbsent(s, k2, sh2, i2, key, sh, name);
  }

  /** Creating an empty day record never withdraws an offer. */
  lemma EnsureDateKeepsEligible(s: Schedule, k2: string, key: string, sh: Shift, name: string)
    requires Eligible(s, key, sh, name)
    ensures Eligible(EnsureDate(s, k2), key, sh, name)
  {
    EnsureDateKeepsCounts(s, k2, WeekQuery(key), name);
  }

  /**
   * The fourth shift of a week closes it: once a non-exempt member with three
   * shifts in a week is given a fourth, no dialog for a date of that week
   * offers them again.
   */
  lemma FourthShiftClosesTheWeek(s: Schedule, key: string, sh: Shift, name: string, key2: string, sh2: Shift)
    requires name != Exempt
    requires WeeklyCount(s, WeekQuery(key), name) == 3
    requires TryAppend(s, key, sh, name).Success?
    requires WeekQuery(key2) == WeekQuery(key)
    ensures !Eligible(TryAppend(s, key, sh, name).value, key2, sh2, name)
  {
    AppendAddsOne(s, key, sh, name, WeekQuery(key), name);
  }
}

=== FILE: holidays.dfy ===
/**
 * `getMonthHolidays`: the holidays of one displayed month, read from the
 * static table day by day.
 */
module Holidays {
  import opened Wrappers
  import opened Text
  import opened Calendar
  import opened DateKeys
  import opened HolidayTable

  /** One entry of `getMonthHolidays`: the day of the month and its label. */
  datatype HolidayEntry = HolidayEntry(day: nat, name: string)

  /** The key `getMonthHolidays` builds for `new Date(year, month, day)`, `month` 0-based. */
  function MonthDayKey(year: nat, month: nat, day: nat): string {
    DateKey(Date(JsYear(year), month + 1, day))
  }

  /**
   * The loop of `getMonthHolidays`, for any labelling of days: the days
   * from 1 to `lastDay` that `nameOf` names, each once, in increasing order,
   * with their labels.
   */
  method CollectHolidays(lastDay: nat, nameOf: nat -> Option<string>) returns (holidays: seq<HolidayEntry>)
    ensures forall i :: 0 <= i < |holidays| ==>
      1 <= holidays[i].day <= lastDay && nameOf(holidays[i].day) == Some(holidays[i].name)
    ensures forall i, j :: 0 <= i < j < |holidays| ==> holidays[i].day < holidays[j].day
    ensures forall d :: 1 <= d <= lastDay ==> nameOf(d).Some? ==>
      exists i :: 0 <= i < |holidays| && holidays[i].day == d
  {
    holidays := [];
    var day := 1;
    while day <= lastDay
      invariant 1 <= day <= lastDay + 1
      invariant forall i :: 0 <= i < |holidays| ==>
        1 <= holidays[i].day < day && nameOf(holidays[i].day) == Some(holidays[i].name)
      invariant forall i, j :: 0 <= i < j < |holidays| ==> holidays[i].day < holidays[j].day
      invariant forall d :: 1 <= d < day ==> nameOf(d).Some? ==>
        exists i :: 0 <= i < |holidays| && holidays[i].day == d
    {
      var holidayName := nameOf(day);
      if holidayName.Some? {
        ghost var before := holidays;
        holidays := holidays + [HolidayEntry(day, holidayName.value)];
        assert forall i :: 0 <= i < |before| ==> holidays[i] == before[i];
        assert holidays[|before|].day == day;
      }
      day := day + 1;
    }
  }

  /**
   * `getMonthHolidays(year, month)` with a 0-based month: the holidays of
   * that month, each once, in increasing day order.
   */
  method GetMonthHolidays(year: nat, month: nat) returns (holidays: seq<HolidayEntry>)
    requires month < 12
    ensures forall i :: 0 <= i < |holidays| ==>
      1 <= holidays[i].day <= DaysInMonth(JsYear(year), month + 1)
      && IsJapanHoliday(MonthDayKey(year, month, holidays[i].day)) == Some(holidays[i].name)
    ensures forall i, j :: 0 <= i < j < |holidays| ==> holidays[i].day < holidays[j].day
    ensures forall d :: 1 <= d <= DaysInMonth(JsYear(year), month + 1) ==>
      IsJapanHoliday(MonthDayKey(year, month, d)).Some? ==>
      exists i :: 0 <= i < |holidays| && holidays[i].day == d
  {
    var lastDay := DaysInMonth(JsYear(year), month + 1);
    var nameOf := (d: nat) => IsJapanHoliday(MonthDayKey(year, month, d));
    holidays := CollectHolidays(lastDay, nameOf);
    forall d | 1 <= d <= lastDay && IsJapanHoliday(MonthDayKey(year, month, d)).Some?
      ensures exists i :: 0 <= i < |holidays| && holidays[i].day == d
    {
      assert nameOf(d).Some?;
    }
  }

  /**
   * Every entry of the holiday table shows up in `getMonthHolidays` for
   * its own month: the year and 0-based month are read off the entry, and
   * the list holds the entry's day with the entry's label.
   */
  method ListsEveryEntry(y: string, md: string) returns (year: nat, month: nat, holidays: seq<HolidayEntry>)
    requires y in Table && md in Table[y]
    ensures IsMonthDay(md)
    ensures Show(year) == y && month + 1 == KeyMonth(md)
    ensures exists i :: 0 <= i < |holidays| && holidays[i] == HolidayEntry(KeyDay(md), Table[y][md])
  {
    TableEntryIsHoliday(y, md);
    year := TableYear(y);
    month := KeyMonth(md) - 1;
    holidays := GetMonthHolidays(year, month);
    var d := KeyDay(md);
    assert MonthDayKey(year, month, d) == DateKey(Date(year, KeyMonth(md), d));
    var i :| 0 <= i < |holidays| && holidays[i].day == d;
    assert holidays[i] == HolidayEntry(d, Table[y][md]);
  }
}

=== FILE: holidaytable.dfy ===
/**
 * `JAPAN_HOLIDAYS` and `isJapanHoliday`: a static two-level table from
 * year, then `MM-DD`, to a holiday label. Nothing is computed; years and
 * dates outside the table are simply not holidays.
 */
module HolidayTable {
  import opened Wrappers
  import opened Text
  import opened Calendar
  import opened DateKeys

  /** The labels of 2025, keyed by `MM-DD`. */
  const Year2025: map<string, string> := map[
    "01-01" := "元日 (설날)",
    "01-13" := "成人の日 (성인의 날)",
    "02-11" := "建国記念の日 (건국기념일)",
    "02-23" := "天皇誕生日 (천황탄생일)",
    "02-24" := "振替休日 (대체휴일)",
    "03-20" := "春分の日 (춘분의 날)",
    "04-29" := "昭和の日 (쇼와의 날)",
    "05-03" := "憲法記念日 (헌법기념일)",
    "05-04" := "みどりの日 (녹색의 날)",
    "05-05" := "こどもの日 (어린이날)",
    "05-06" := "振替休日 (대체휴일)",
    "07-21" := "海の日 (바다의 날)",
    "08-11" := "山の日 (산의 날)",
    "09-15" := "敬老の日 (경로의 날)",
    "09-23" := "秋分の日 (추분의 날)",
    "10-13" := "スポーツの日 (스포츠의 날)",
    "11-03" := "文化の日 (문화의 날)",
    "11-23" := "勤労感謝の日 (근로감사의 날)",
    "11-24" := "振替休日 (대체휴일)"
  ]

  /** The labels of 2026, keyed by `MM-DD`. */
  const Year2026: map<string, string> := map[
    "01-01" := "元日 (설날)",
    "01-12" := "成人の日 (성인의 날)",
    "02-11" := "建国記念の日 (건국기념일)",
    "02-23" := "天皇誕生日 (천황탄생일)",
    "03-20" := "春分の日 (춘분의 날)",
    "04-29" := "昭和の日 (쇼와의 날)",
    "05-03" := "憲法記念日 (헌법기념일)",
    "05-04" := "みどりの日 (녹색의 날)",
    "05-05" := "こどもの日 (어린이날)",
    "05-06" := "振替休日 (대체휴일)",
    "07-20" := "海の日 (바다의 날)",
    "08-11" := "山の日 (산의 날)",
    "09-21" := "敬老の日 (경로의 날)",
    "09-22" := "秋分の日 (추분의 날)",
    "10-12" := "スポーツの日 (스포츠의 날)",
    "11-03" := "文化の日 (문화의 날)",
    "11-23" := "勤労感謝の日 (근로감사의 날)"
  ]

  /** The whole table: year, then `MM-DD`, to label. */
  const Table: map<string, map<string, string>> := map["2025" := Year2025, "2026" := Year2026]

  /** `JAPAN_HOLIDAYS[year]?.[monthDay] || null`: a stored, non-empty label or nothing. */
  function Lookup(year: string, monthDay: string): Option<string> {
    if year in Table && monthDay in Table[year] && Table[year][monthDay] != ""
    then Some(Table[year][monthDay])
    else None
  }

  /** An absent array element interpolates as the text `undefined`. */
  function PartOr(parts: seq<string>, i: nat): string {
    if i < |parts| then parts[i] else "undefined"
  }

  /** `isJapanHoliday(dateKey)`: split the key, rejoin month and day, look both levels up. */
  function IsJapanHoliday(key: string): (r: Option<string>)
    ensures r.Some? ==> Split(key, '-')[0] in Table && r.value != "" && r.value in Table[Split(key, '-')[0]].Values
  {
    var parts := Split(key, '-');
    Lookup(parts[0], PartOr(parts, 1) + "-" + PartOr(parts, 2))
  }

  /** On a date key the lookup is the table entry for the year and the padded `MM-DD`. */
  lemma IsJapanHolidayOfDateKey(dt: Date)
    ensures IsJapanHoliday(DateKey(dt)) == Lookup(Show(dt.year), Pad2(dt.month) + "-" + Pad2(dt.day))
  {
  }

  /** The table holds only the years 2025 and 2026: any other year is never a holiday. */
  lemma OtherYearsHaveNoHolidays(key: string)
    requires Split(key, '-')[0] != "2025" && Split(key, '-')[0] != "2026"
    ensures IsJapanHoliday(key) == None
  {
  }

  /** An `MM-DD` key: two digits, a dash, two digits. */
  predicate IsMonthDay(md: string) {
    |md| == 5 && md[2] == '-' && IsDigit(md[0]) && IsDigit(md[1]) && IsDigit(md[3]) && IsDigit(md[4])
  }

  function KeyMonth(md: string): nat
    requires IsMonthDay(md)
  {
    DigitValue(md[0]) * 10 + DigitValue(md[1])
  }

  function KeyDay(md: string): nat
    requires IsMonthDay(md)
  {
    DigitValue(md[3]) * 10 + DigitValue(md[4])
  }

  /** Every key of a year's labels is `MM-DD` of a real date of that year, with a non-empty label. */
  predicate EntriesAreDates(year: nat, labels: map<string, string>) {
    forall md :: md in labels ==>
      && IsMonthDay(md)
      && 1 <= KeyMonth(md) <= 12
      && 1 <= KeyDay(md) <= DaysInMonth(year, KeyMonth(md))
      && labels[md] != ""
  }

  lemma Entries2025AreDates()
    ensures EntriesAreDates(2025, Year2025)
  {
    assert !IsLeapYear(2025);
    forall md | md in Year2025
      ensures IsMonthDay(md) && 1 <= KeyMonth(md) <= 12 && 1 <= KeyDay(md) <= DaysInMonth(2025, KeyMonth(md))
      ensures Year2025[md] != ""
    {
    }
  }

  lemma Entries2026AreDates()
    ensures EntriesAreDates(2026, Year2026)
  {
    assert !IsLeapYear(2026);
    forall md | md in Year2026
      ensures IsMonthDay(md) && 1 <= KeyMonth(md) <= 12 && 1 <= KeyDay(md) <= DaysInMonth(2026, KeyMonth(md))
      ensures Year2026[md] != ""
    {
    }
  }

  /** An `MM-DD` key is the padded month, a dash and the padded day it spells. */
  lemma MonthDayRendering(md: string)
    requires IsMonthDay(md)
    ensures md == Pad2(KeyMonth(md)) + "-" + Pad2(KeyDay(md))
  {
    Pad2OfDigits(md[0], md[1]);
    Pad2OfDigits(md[3], md[4]);
  }

  /** The number a year key of the table names: the year that renders as that key. */
  function TableYear(y: string): (year: nat)
    requires y in Table
    ensures Show(year) == y
  {
    YearRenderings();
    if y == "2025" then 2025 else 2026
  }

  /** The date an `MM-DD` key names in a given year has the key `{year}-{MM-DD}`. */
  lemma EntryKey(year: nat, md: string)
    requires IsMonthDay(md)
    ensures DateKey(Date(year, KeyMonth(md), KeyDay(md))) == Show(year) + "-" + md
  {
    MonthDayRendering(md);
  }

  /** An entry of a year whose keys are real dates is the holiday of its date. */
  lemma EntryIsHoliday(year: nat, md: string)
    requires year >= 1 && Show(year) in Table && EntriesAreDates(year, Table[Show(year)])
    requires md in Table[Show(year)]
    ensures ValidDate(Date(year, KeyMonth(md), KeyDay(md)))
    ensures IsJapanHoliday(DateKey(Date(year, KeyMonth(md), KeyDay(md)))) == Some(Table[Show(year)][md])
  {
    var dt := Date(year, KeyMonth(md), KeyDay(md));
    MonthDayRendering(md);
    IsJapanHolidayOfDateKey(dt);
  }

  /**
   * No entry of the table is dead: each one is the label `isJapanHoliday`
   * reports for the key of a real date of its year.
   */
  lemma TableEntryIsHoliday(y: string, md: string)
    requires y in Table && md in Table[y]
    ensures IsMonthDay(md) && 1 <= KeyMonth(md) <= 12
    ensures ValidDate(Date(TableYear(y), KeyMonth(md), KeyDay(md)))
    ensures DateKey(Date(TableYear(y), KeyMonth(md), KeyDay(md))) == y + "-" + md
    ensures IsJapanHoliday(DateKey(Date(TableYear(y), KeyMonth(md), KeyDay(md)))) == Some(Table[y][md])
  {
    TableYearKeys(y);
    if y == "2025" {
      Entries2025AreDates();
    } else {
      Entries2026AreDates();
    }
    EntryIsHoliday(TableYear(y), md);
    EntryKey(TableYear(y), md);
  }

  /** The table's year keys are exactly `2025` and `2026`, each holding its own year's entries. */
  lemma TableYearKeys(y: string)
    requires y in Table
    ensures y == "2025" ==> Table[y] == Year2025
    ensures y != "2025" ==> y == "2026" && Table[y] == Year2026
  {
  }

  lemma YearRenderings()
    ensures Show(2025) == "2025" && Show(2026) == "2026"
  {
  }

  /** The key of 1 January 2025 looks up `2025`, then `01-01`. */
  lemma JanuaryFirstKey()
    ensures IsJapanHoliday(DateKey(Date(2025, 1, 1))) == Lookup("2025", "01-01")
  {
    YearRenderings();
    MonthDayRendering("01-01");
    IsJapanHolidayOfDateKey(Date(2025, 1, 1));
  }

  /** The key of 2 January 2025 looks up `2025`, then `01-02`. */
  lemma JanuarySecondKey()
    ensures IsJapanHoliday(DateKey(Date(2025, 1, 2))) == Lookup("2025", "01-02")
  {
    YearRenderings();
    MonthDayRendering("01-02");
    IsJapanHolidayOfDateKey(Date(2025, 1, 2));
  }

  /** 1 January 2025 is labelled as New Year's Day. */
  lemma NewYearIsHoliday()
    ensures IsJapanHoliday(DateKey(Date(2025, 1, 1))) == Some("元日 (설날)")
  {
    JanuaryFirstKey();
    NewYearEntry();
  }

  lemma NewYearEntry()
    ensures Lookup("2025", "01-01") == Some("元日 (설날)")
  {
    assert Table["2025"] == Year2025;
    assert Year2025["01-01"] == "元日 (설날)";
  }

  /** 2 January 2025 is an ordinary day. */
  lemma OrdinaryDayIsNotHoliday()
    ensures IsJapanHoliday(DateKey(Date(2025, 1, 2))) == None
  {
    JanuarySecondKey();
    NoEntryOnJanuarySecond();
  }

  lemma NoEntryOnJanuarySecond()
    ensures Lookup("2025", "01-02") == None
  {
    assert Table["2025"] == Year2025;
    assert "01-02" !in Year2025;
  }

  lemma YearOutsideTableIsNotHoliday()
    ensures IsJapanHoliday(DateKey(Date(2030, 1, 1))) == None
  {
    assert Show(2030) == "2030";
    OtherYearsHaveNoHolidays(DateKey(Date(2030, 1, 1)));
  }
}

=== FILE: store.dfy ===
/**
 * The schedule store: `SHIFT_RULES`, `MEMBERS`, the map from date key to
 * `{morning, afternoon}` name lists, and the mutations `ensureDate`, the
 * guarded append of the save handler and the splice-then-delete of
 * `removeAssignment`.
 */
module Store {
  import opened Wrappers

  datatype Shift = Morning | Afternoon {
    function Other(): Shift {
      if Morning? then Afternoon else Morning
    }
  }

  datatype ShiftRule = ShiftRule(title: string, hours: string, capacity: nat)

  /** `SHIFT_RULES`. */
  function Rule(sh: Shift): ShiftRule {
    match sh
    case Morning => ShiftRule("오전", "09:00 - 15:00", 2)
    case Afternoon => ShiftRule("오후", "15:00 - 21:00", 1)
  }

  function Capacity(sh: Shift): nat {
    Rule(sh).capacity
  }

  /** `MEMBERS`: the roster, in display order. */
  const Members: seq<string> := [
    "함상훈", "표영군", "박은영", "임소정", "이도우", "김가영", "전유석", "윤재승", "이지수"
  ]

  /** The one member the weekly cap does not apply to. */
  const Exempt: string := "박은영"

  /** The names assigned to each shift of one day, in insertion order. */
  datatype DaySchedule = DaySchedule(morning: seq<string>, afternoon: seq<string>) {
    function Get(sh: Shift): seq<string> {
      match sh
      case Morning => morning
      case Afternoon => afternoon
    }

    function With(sh: Shift, names: seq<string>): (d: DaySchedule)
      ensures d.Get(sh) == names && d.Get(sh.Other()) == Get(sh.Other())
    {
      match sh
      case Morning => DaySchedule(names, afternoon)
      case Afternoon => DaySchedule(morning, names)
    }

    predicate IsEmpty() {
      |morning| == 0 && |afternoon| == 0
    }
  }

  const EmptyDay: DaySchedule := DaySchedule([], [])

  /** The whole document: date key to that day's assignments. */
  type Schedule = map<string, DaySchedule>

  /** `ensureDate(key)`: add an empty day record when, and only when, the key is absent. */
  function EnsureDate(s: Schedule, key: string): (r: Schedule)
    ensures r.Keys == s.Keys + {key}
    ensures forall k :: k in s ==> r[k] == s[k]
    ensures key !in s ==> r[key] == EmptyDay
  {
    if key in s then s else s[key := EmptyDay]
  }

  /** The list `schedule[key][sh]` reads after `ensureDate(key)`: empty for an absent day. */
  function Taken(s: Schedule, key: string, sh: Shift): seq<string> {
    if key in s then s[key].Get(sh) else []
  }

  predicate NoDuplicates(names: seq<string>) {
    forall i, j :: 0 <= i < j < |names| ==> names[i] != names[j]
  }

  /** Every shift of the day is within capacity and names nobody twice. */
  predicate WithinRules(day: DaySchedule) {
    && |day.morning| <= Capacity(Morning) && NoDuplicates(day.morning)
    && |day.afternoon| <= Capacity(Afternoon) && NoDuplicates(day.afternoon)
  }

  predicate WellFormed(s: Schedule) {
    forall k :: k in s ==> WithinRules(s[k])
  }

  /** No day record with both lists empty is present. */
  predicate NoEmptyDays(s: Schedule) {
    forall k :: k in s ==> !s[k].IsEmpty()
  }

  datatype Rejection = CapacityExceeded | DuplicateAssignment

  /**
   * The confirm step of the save handler: after `ensureDate`, refuse when
   * the shift is full, then when the name is already in it, and otherwise
   * push the name.
   */
  function TryAppend(s: Schedule, key: string, sh: Shift, name: string): (r: Result<Schedule, Rejection>)
    ensures r == Failure(CapacityExceeded) <==> |Taken(s, key, sh)| >= Capacity(sh)
    ensures r == Failure(DuplicateAssignment) <==>
      |Taken(s, key, sh)| < Capacity(sh) && name in Taken(s, key, sh)
    ensures r.Success? <==> |Taken(s, key, sh)| < Capacity(sh) && name !in Taken(s, key, sh)
    ensures r.Success? ==>
      && r.value.Keys == s.Keys + {key}
      && Taken(r.value, key, sh) == Taken(s, key, sh) + [name]
      && Taken(r.value, key, sh.Other()) == Taken(s, key, sh.Other())
      && forall k :: k in s && k != key ==> r.value[k] == s[k]
  {
    var ensured := EnsureDate(s, key);
    var current := ensured[key].Get(sh);
    if |current| >= Capacity(sh) then Failure(CapacityExceeded)
    else if name in current then Failure(DuplicateAssignment)
    else Success(ensured[key := ensured[key].With(sh, current + [name])])
  }

  /**
   * `removeAssignment` after the user confirmed: `ensureDate`, then
   * `splice(index, 1)` on the shift's list (which removes nothing when the
   * index is past the end), then delete the day when both lists are empty.
   */
  function RemoveAt(s: Schedule, key: string, sh: Shift, index: nat): (r: Schedule)
    ensures index < |Taken(s, key, sh)| ==>
      && |Taken(r, key, sh)| + 1 == |Taken(s, key, sh)|
      && Taken(s, key, sh)
         == Taken(r, key, sh)[..index] + [Taken(s, key, sh)[index]] + Taken(r, key, sh)[index..]
    ensures index >= |Taken(s, key, sh)| ==> Taken(r, key, sh) == Taken(s, key, sh)
    ensures Taken(r, key, sh.Other()) == Taken(s, key, sh.Other())
    ensures key in r <==> |Taken(r, key, Morning)| > 0 || |Taken(r, key, Afternoon)| > 0
    ensures forall k :: k != key ==> (k in r <==> k in s)
    ensures forall k :: k in s && k != key ==> r[k] == s[k]
  {
    var ensured := EnsureDate(s, key);
    var current := ensured[key].Get(sh);
    var remaining := if index < |current| then current[..index] + current[index + 1..] else current;
    var day := ensured[key].With(sh, remaining);
    if day.IsEmpty() then ensured - {key} else ensured[key := day]
  }

  /** `ensureDate` is idempotent. */
  lemma EnsureDateIdempotent(s: Schedule, key: string)
    ensures EnsureDate(EnsureDate(s, key), key) == EnsureDate(s, key)
  {
  }

  /** A refused append leaves the schedule as it was: a full or duplicate list means the day exists. */
  lemma RefusedAppendChangesNothing(s: Schedule, key: string, sh: Shift, name: string)
    requires TryAppend(s, key, sh, name).Failure?
    ensures key in s && EnsureDate(s, key) == s
  {
  }

  /** The guarded append keeps every day within capacity and free of duplicates. */
  lemma TryAppendPreservesWellFormed(s: Schedule, key: string, sh: Shift, name: string)
    requires WellFormed(s) && TryAppend(s, key, sh, name).Success?
    ensures WellFormed(TryAppend(s, key, sh, name).value)
  {
  }

  /** The guarded append never leaves an empty day behind. */
  lemma TryAppendPreservesNoEmptyDays(s: Schedule, key: string, sh: Shift, name: string)
    requires NoEmptyDays(s) && TryAppend(s, key, sh, name).Success?
    ensures NoEmptyDays(TryAppend(s, key, sh, name).value)
  {
    var r := TryAppend(s, key, sh, name).value;
    assert |r[key].Get(sh)| > 0;
  }

  /** Taking one element out of a list without duplicates leaves a list without duplicates. */
  lemma RemovalKeepsNoDuplicates(l: seq<string>, l': seq<string>, index: nat)
    requires index < |l| && |l'| + 1 == |l|
    requires l == l'[..index] + [l[index]] + l'[index..]
    requires NoDuplicates(l)
    ensures NoDuplicates(l')
  {
    assert forall i :: 0 <= i < index ==> l'[i] == l[i];
    assert forall i :: index <= i < |l'| ==> l'[i] == l[i + 1];
  }

  /** Taking one element out of a list adds no name to it. */
  lemma RemovalKeepsAbsent(l: seq<string>, l': seq<string>, index: nat, name: string)
    requires index < |l| && |l'| + 1 == |l|
    requires l == l'[..index] + [l[index]] + l'[index..]
    requires name !in l
    ensures name !in l'
  {
    assert forall i :: 0 <= i < index ==> l'[i] == l[i];
    assert forall i :: index <= i < |l'| ==> l'[i] == l[i + 1];
  }

  /** A removal adds no name to any shift of any date. */
  lemma RemoveAtKeepsAbsent(s: Schedule, k2: string, sh2: Shift, i2: nat, key: string, sh: Shift, name: string)
    requires name !in Taken(s, key, sh)
    ensures name !in Taken(RemoveAt(s, k2, sh2, i2), key, sh)
  {
    var r := RemoveAt(s, k2, sh2, i2);
    if key != k2 {
      assert key in r <==> key in s;
    } else if sh == sh2 {
      if i2 < |Taken(s, k2, sh2)| {
        RemovalKeepsAbsent(Taken(s, key, sh), Taken(r, key, sh), i2, name);
      }
    } else {
      assert sh == sh2.Other() by {
        if sh2.Morning? {
          assert sh.Afternoon?;
        }
      }
    }
  }

  /** Taking one element out of a list removes exactly one occurrence of it from the bag of names. */
  lemma RemovalMultiset(l: seq<string>, l': seq<string>, index: nat)
    requires index < |l| && |l'| + 1 == |l|
    requires l == l'[..index] + [l[index]] + l'[index..]
    ensures multiset(l) == multiset(l') + multiset{l[index]}
  {
    assert l'[..index] + l'[index..] == l';
  }

  /** Removing an entry keeps every day within capacity and free of duplicates. */
  lemma RemoveAtPreservesWellFormed(s: Schedule, key: string, sh: Shift, index: nat)
    requires WellFormed(s)
    ensures WellFormed(RemoveAt(s, key, sh, index))
  {
  }

  /** After a removal no empty day record is left, the touched one included. */
  lemma RemoveAtPreservesNoEmptyDays(s: Schedule, key: string, sh: Shift, index: nat)
    requires NoEmptyDays(s)
    ensures NoEmptyDays(RemoveAt(s, key, sh, index))
  {
    var r := RemoveAt(s, key, sh, index);
    if key in r {
      assert r[key].morning == Taken(r, key, Morning);
      assert r[key].afternoon == Taken(r, key, Afternoon);
    }
  }

  /**
   * Adding a name and then removing it at the end of the list restores the
   * schedule, provided the day was absent or not empty; a newly created day
   * disappears again.
   */
  lemma AppendThenRemoveRestores(s: Schedule, key: string, sh: Shift, name: string)
    requires key !in s || !s[key].IsEmpty()
    requires TryAppend(s, key, sh, name).Success?
    ensures RemoveAt(TryAppend(s, key, sh, name).value, key, sh, |Taken(s, key, sh)|) == s
  {
    var a := TryAppend(s, key, sh, name).value;
    var l := Taken(s, key, sh);
    var r := RemoveAt(a, key, sh, |l|);
    assert Taken(a, key, sh) == l + [name];
    assert Taken(r, key, sh) == l by {
      var l' := Taken(r, key, sh);
      assert l + [name] == l'[..|l|] + [name] + l'[|l|..];
      assert |l'| == |l|;
      assert l'[..|l|] == l';
    }
    assert Taken(r, key, sh.Other()) == Taken(s, key, sh.Other());
    if key in s {
      assert key in r;
      assert r[key].Get(sh) == s[key].Get(sh);
      assert r[key].Get(sh.Other()) == s[key].Get(sh.Other());
      assert r[key] == s[key] by {
        if sh.Morning? {
          assert r[key].morning == s[key].morning && r[key].afternoon == s[key].afternoon;
        } else {
          assert r[key].morning == s[key].morning && r[key].afternoon == s[key].afternoon;
        }
      }
    } else {
      assert l == [] && Taken(s, key, sh.Other()) == [];
      assert key !in r;
    }
    assert r.Keys == s.Keys;
  }

  /**
   * On a date holding the empty record an earlier `ensureDate` left behind,
   * appending a name and removing it again deletes the record altogether.
   */
  lemma AppendThenRemoveDropsEmptyRecord(s: Schedule, key: string, sh: Shift, name: string)
    requires key in s && s[key].IsEmpty()
    ensures TryAppend(s, key, sh, name).Success?
    ensures RemoveAt(TryAppend(s, key, sh, name).value, key, sh, 0) == s - {key}
  {
    var r := RemoveAt(TryAppend(s, key, sh, name).value, key, sh, 0);
    assert Taken(r, key, sh) == [];
    assert key !in r;
    assert r.Keys == s.Keys - {key};
  }
}

=== FILE: text.dfy ===
/**
 * The few JavaScript string primitives the schedule code relies on:
 * `String(n)` for a non-negative integer, `padStart(2, '0')`,
 * `Number(part)` on a decimal part, and `split('-')`.
 */
module Text {
  import opened Wrappers

  predicate IsDigit(c: char) {
    '0' <= c <= '9'
  }

  predicate AllDigits(s: string) {
    forall i :: 0 <= i < |s| ==> IsDigit(s[i])
  }

  function DigitChar(n: nat): (c: char)
    requires n < 10
    ensures IsDigit(c)
  {
    ('0' as int + n) as char
  }

  function DigitValue(c: char): (n: nat)
    requires IsDigit(c)
    ensures n < 10
  {
    c as int - '0' as int
  }

  /** `String(n)` for a non-negative integer: its decimal digits, no leading zeros. */
  function Show(n: nat): (s: string)
    ensures |s| >= 1 && AllDigits(s)
    ensures n < 10 <==> |s| == 1
  {
    if n < 10 then [DigitChar(n)] else Show(n / 10) + [DigitChar(n % 10)]
  }

  /** `String(n).padStart(2, '0')`: a one-digit number gets a leading zero. */
  function Pad2(n: nat): (s: string)
    ensures |s| >= 2 && AllDigits(s)
    ensures n < 100 ==> |s| == 2
  {
    if n < 10 then "0" + Show(n) else Show(n)
  }

  /** The value of a string of decimal digits, most significant first. */
  function DigitsValue(s: string): nat
    requires AllDigits(s)
  {
    if |s| == 0 then 0 else DigitsValue(s[..|s| - 1]) * 10 + DigitValue(s[|s| - 1])
  }

  /**
   * `Number(part)` restricted to the shapes a date-key part can take:
   * the empty string is 0, a run of decimal digits is its value,
   * anything else is NaN (None).
   */
  function Number(s: string): (r: Option<nat>)
    ensures r.Some? <==> AllDigits(s)
  {
    if AllDigits(s) then Some(DigitsValue(s)) else None
  }

  /**
   * `s.split(sep)`: the maximal separator-free pieces of `s`, in order,
   * with an empty piece before a leading, after a trailing and between two
   * adjacent separators. Never empty.
   */
  function Split(s: string, sep: char): (parts: seq<string>)
    ensures |parts| >= 1
    ensures forall i :: 0 <= i < |parts| ==> sep !in parts[i]
  {
    if |s| == 0 then [""]
    else if s[0] == sep then [""] + Split(s[1..], sep)
    else
      var rest := Split(s[1..], sep);
      [[s[0]] + rest[0]] + rest[1..]
  }

  /** `parts.join(sep)`, the inverse of `Split`. */
  function Join(parts: seq<string>, sep: char): string
    requires |parts| >= 1
  {
    if |parts| == 1 then parts[0] else parts[0] + [sep] + Join(parts[1..], sep)
  }

  lemma {:induction false} ShowValue(n: nat)
    ensures DigitsValue(Show(n)) == n
  {
    if n >= 10 {
      var s := Show(n);
      assert s[..|s| - 1] == Show(n / 10);
      ShowValue(n / 10);
    }
  }

  /** `Number(String(n)) === n`. */
  lemma NumberOfShow(n: nat)
    ensures Number(Show(n)) == Some(n)
  {
    ShowValue(n);
  }

  /** `Number(String(n).padStart(2, '0')) === n`: the padding zero is harmless. */
  lemma NumberOfPad2(n: nat)
    ensures Number(Pad2(n)) == Some(n)
  {
    ShowValue(n);
    if n < 10 {
      var s := Pad2(n);
      assert s[..1] == "0" && DigitsValue("0") == 0;
      assert s[1] == DigitChar(n);
    }
  }

  /** Distinct numbers have distinct decimal renderings. */
  lemma ShowInjective(a: nat, b: nat)
    ensures Show(a) == Show(b) <==> a == b
  {
    if Show(a) == Show(b) {
      ShowValue(a);
      ShowValue(b);
    }
  }

  lemma Pad2Injective(a: nat, b: nat)
    ensures Pad2(a) == Pad2(b) <==> a == b
  {
    if Pad2(a) == Pad2(b) {
      NumberOfPad2(a);
      NumberOfPad2(b);
    }
  }

  lemma DigitsHaveNoSep(s: string, sep: char)
    requires AllDigits(s) && !IsDigit(sep)
    ensures sep !in s
  {
    assert forall i :: 0 <= i < |s| ==> s[i] != sep;
  }

  /** A string without the separator splits into itself. */
  lemma {:induction false} SplitNoSep(s: string, sep: char)
    requires sep !in s
    ensures Split(s, sep) == [s]
  {
    if |s| > 0 {
      assert s[0] in s;
      SplitNoSep(s[1..], sep);
      assert [s[0]] + s[1..] == s;
    }
  }

  /** A separator-free head is peeled off as the first piece. */
  lemma {:induction false} SplitCons(a: string, sep: char, b: string)
    requires sep !in a
    ensures Split(a + [sep] + b, sep) == [a] + Split(b, sep)
  {
    var s := a + [sep] + b;
    if |a| == 0 {
      assert s[1..] == b;
    } else {
      assert s[1..] == a[1..] + [sep] + b;
      SplitCons(a[1..], sep, b);
      assert [a[0]] + a[1..] == a;
    }
  }

  /** Three separator-free pieces joined by the separator split back into those pieces. */
  lemma SplitThree(a: string, b: string, c: string, sep: char)
    requires sep !in a && sep !in b && sep !in c
    ensures Split(a + [sep] + b + [sep] + c, sep) == [a, b, c]
  {
    assert a + [sep] + b + [sep] + c == a + [sep] + (b + [sep] + c);
    SplitCons(a, sep, b + [sep] + c);
    SplitCons(b, sep, c);
    SplitNoSep(c, sep);
  }

  /** Two digit characters are the two-digit rendering of the number they spell. */
  lemma Pad2OfDigits(hi: char, lo: char)
    requires IsDigit(hi) && IsDigit(lo)
    ensures Pad2(DigitValue(hi) * 10 + DigitValue(lo)) == [hi, lo]
  {
    var n := DigitValue(hi) * 10 + DigitValue(lo);
    assert n / 10 == DigitValue(hi) && n % 10 == DigitValue(lo);
    assert DigitChar(DigitValue(hi)) == hi && DigitChar(DigitValue(lo)) == lo;
    if DigitValue(hi) == 0 {
      assert n < 10 && hi == '0';
      assert Pad2(n) == "0" + [DigitChar(n)];
    } else {
      assert n >= 10;
      assert Show(n) == Show(n / 10) + [DigitChar(n % 10)];
      assert Show(n / 10) == [hi];
    }
  }

  /** Joining the pieces with the separator gives back the original string. */
  lemma {:induction false} JoinSplit(s: string, sep: char)
    ensures Join(Split(s, sep), sep) == s
  {
    if |s| > 0 {
      JoinSplit(s[1..], sep);
      var rest := Split(s[1..], sep);
      if s[0] == sep {
        assert Split(s, sep)[1..] == rest;
      } else {
        var parts := Split(s, sep);
        if |rest| == 1 {
          assert parts == [[s[0]] + rest[0]];
        } else {
          assert parts[1..] == rest[1..];
          assert Join(rest, sep) == rest[0] + [sep] + Join(rest[1..], sep);
        }
      }
    }
  }
}

=== FILE: weeks.dfy ===
/**
 * `getWeekNumber`: the month-relative week bucket of a date. Weeks are the
 * Sunday-started rows of the month's calendar grid, numbered from 1 in
 * every month; this is not ISO 8601 week numbering.
 */
module Weeks {
  import opened Wrappers
  import opened Text
  import opened Calendar
  import opened DateKeys

  /** `Math.ceil((day + firstDayOfWeek) / 7)`. */
  function WeekNumber(day: nat, firstWeekday: nat): (n: nat)
    requires day >= 1 && firstWeekday < 7
    ensures n >= 1
    ensures (n - 1) * 7 < day + firstWeekday <= n * 7
  {
    (day + firstWeekday + 6) / 7
  }

  /** The bucket `{year}-{MM}-W{n}` names. */
  datatype WeekId = WeekId(year: nat, month: nat, index: nat)

  function WeekOf(dt: Date): (w: WeekId)
    requires ValidDate(dt)
    ensures w.year == dt.year && w.month == dt.month
  {
    WeekId(dt.year, dt.month, WeekNumber(dt.day, FirstWeekday(dt.year, dt.month)))
  }

  /** What `getWeekNumber` renders for an Invalid Date: every component is NaN. */
  const InvalidWeekKey: string := "NaN-NaN-WNaN"

  /**
   * The string form of a bucket: year as written, month padded, `-W`, then
   * the number. It splits back into those three parts, and it never equals
   * the Invalid Date rendering, which starts with a letter.
   */
  function WeekKey(w: WeekId): (key: string)
    ensures Split(key, '-') == [Show(w.year), Pad2(w.month), "W" + Show(w.index)]
    ensures key != InvalidWeekKey
  {
    var y, m, n := Show(w.year), Pad2(w.month), "W" + Show(w.index);
    DigitsHaveNoSep(y, '-');
    DigitsHaveNoSep(m, '-');
    DigitsHaveNoSep(Show(w.index), '-');
    assert '-' !in n by {
      assert forall i :: 1 <= i < |n| ==> n[i] == Show(w.index)[i - 1];
    }
    SplitThree(y, m, n, '-');
    assert (y + "-" + m + "-" + n)[0] == y[0] && IsDigit(y[0]);
    y + "-" + m + "-" + n
  }

  /**
   * `getWeekNumber(new Date(y, m - 1, d))` for a schedule key. A key that
   * names no real date gives None: in the browser it yields an Invalid Date.
   */
  function WeekKeyOfDateKey(key: string): (r: Option<string>)
    ensures r.Some? <==> DateOfKey(key).Some?
    ensures r.Some? ==> r.value == WeekKey(WeekOf(DateOfKey(key).value))
  {
    match DateOfKey(key)
    case Some(dt) => Some(WeekKey(WeekOf(dt)))
    case None => None
  }

  /**
   * The week key `getWeekNumber` renders for a schedule key, as both the
   * weekly count and the assignment dialog compute it: the date's week
   * key, or the Invalid Date rendering when the key names no date.
   */
  function WeekQuery(key: string): (wk: string)
    ensures wk == InvalidWeekKey <==> DateOfKey(key).None?
  {
    match WeekKeyOfDateKey(key)
    case Some(wk) => wk
    case None => InvalidWeekKey
  }

  /** Day 1 of any month is in week 1. */
  lemma FirstOfMonthIsWeekOne(y: nat, m: nat)
    requires y >= 1 && 1 <= m <= 12
    ensures WeekOf(Date(y, m, 1)).index == 1
  {
  }

  /** Days 1..31 with a first weekday 0..6 land in weeks 1..6. */
  lemma WeekNumberRange(day: nat, firstWeekday: nat)
    requires 1 <= day <= 31 && firstWeekday < 7
    ensures 1 <= WeekNumber(day, firstWeekday) <= 6
  {
  }

  /**
   * The week number is one more than the grid row of the day's cell: the
   * month view puts day `d` in slot `firstWeekday + d - 1` of a 7-column grid.
   */
  lemma WeekIsGridRow(day: nat, firstWeekday: nat)
    requires day >= 1 && firstWeekday < 7
    ensures WeekNumber(day, firstWeekday) == (firstWeekday + day - 1) / 7 + 1
  {
  }

  /**
   * Within a month the bucket changes exactly on Sundays: the next day is in
   * the next week when it is a Sunday and in the same week otherwise.
   */
  lemma WeekAdvancesOnSunday(dt: Date)
    requires ValidDate(dt) && dt.day < DaysInMonth(dt.year, dt.month)
    ensures WeekOf(NextDay(dt)).index
         == WeekOf(dt).index + (if Weekday(NextDay(dt)) == 0 then 1 else 0)
  {
    var f := FirstWeekday(dt.year, dt.month);
    var next := NextDay(dt);
    WeekdayInMonth(next);
    WeekIsGridRow(dt.day, f);
    WeekIsGridRow(next.day, f);
    MultiplesStep(f + dt.day, 7);
  }

  /** Two week keys are equal exactly when they name the same bucket. */
  lemma WeekKeyInjective(a: WeekId, b: WeekId)
    ensures WeekKey(a) == WeekKey(b) <==> a == b
  {
    if WeekKey(a) == WeekKey(b) {
      ShowInjective(a.year, b.year);
      Pad2Injective(a.month, b.month);
      assert Show(a.index) == ("W" + Show(a.index))[1..];
      assert Show(b.index) == ("W" + Show(b.index))[1..];
      ShowInjective(a.index, b.index);
    }
  }

  /**
   * The key of a real date from year 100 on leads, through the parse at
   * the head of the count loop, to that date's own week key.
   */
  lemma WeekKeyOfDate(dt: Date)
    requires ValidDate(dt) && dt.year >= 100
    ensures WeekKeyOfDateKey(DateKey(dt)) == Some(WeekKey(WeekOf(dt)))
    ensures WeekQuery(DateKey(dt)) == WeekKey(WeekOf(dt))
  {
    DateOfDateKey(dt);
  }

  /** The worked case: a month starting on a Wednesday puts day 1 in week 1 and day 5 in week 2. */
  lemma WednesdayStartExample()
    ensures WeekNumber(1, 3) == 1 && WeekNumber(5, 3) == 2
  {
  }
}

=== FILE: workflow.dfy ===
/**
 * The assignment workflow of one browser session: the add button
 * (`handleAdd`), the dialog's save and cancel buttons, and the remove chip
 * (`removeAssignment`). Every mutation is made locally first and the whole
 * document is then saved; when saving fails the session reloads the remote
 * copy, which may not contain the change just made.
 */
module Workflow {
  import opened Wrappers
  import opened Store
  import opened Counts
  import opened Eligibility

  /**
   * `pendingAssignment`: the shift the open dialog is for, with the schedule
   * the dialog's picker was built from when it opened.
   */
  datatype Pending = Pending(date: string, shift: Shift, offeredOn: Schedule)

  datatype Session = Session(schedule: Schedule, pending: Option<Pending>)

  /**
   * How the full-document save went: it succeeded, or it failed and the
   * reload that follows either returned the remote snapshot or failed too.
   */
  datatype SaveResult = Saved | SaveFailed(reloaded: Option<Schedule>)

  /** The blocking alerts the workflow raises. */
  datatype Notice = Refused(reason: Rejection) | MissingSelection | SaveFailure

  /** The schedule after a save attempt on `local`: the remote snapshot replaces it when one was reloaded. */
  function AfterSave(local: Schedule, save: SaveResult): (r: Schedule)
    ensures save.Saved? ==> r == local
    ensures save.SaveFailed? && save.reloaded.Some? ==> r == save.reloaded.value
    ensures save.SaveFailed? && save.reloaded.None? ==> r == local
  {
    match save
    case Saved => local
    case SaveFailed(None) => local
    case SaveFailed(Some(remote)) => remote
  }

  /** The alert a save attempt raises: none when it succeeded. */
  function SaveNotice(save: SaveResult): (r: Option<Notice>)
    ensures r.None? <==> save.Saved?
    ensures r.Some? ==> r.value == SaveFailure
  {
    if save.Saved? then None else Some(SaveFailure)
  }

  /**
   * `handleAdd(key, sh)`: after `ensureDate`, a full shift is refused with
   * an alert and the dialog is not opened; otherwise the dialog opens for
   * this shift, replacing any pending one.
   */
  function HandleAdd(sess: Session, key: string, sh: Shift): (r: (Session, Option<Notice>))
    ensures r.0.schedule == EnsureDate(sess.schedule, key)
    ensures r.1 == None || r.1 == Some(Refused(CapacityExceeded))
    ensures r.1 == Some(Refused(CapacityExceeded)) <==> |Taken(sess.schedule, key, sh)| >= Capacity(sh)
    ensures r.1.None? <==> |Taken(sess.schedule, key, sh)| < Capacity(sh)
    ensures r.1.None? ==> r.0.pending == Some(Pending(key, sh, r.0.schedule))
    ensures r.1.Some? ==> r.0.pending == sess.pending
  {
    var ensured := EnsureDate(sess.schedule, key);
    if |ensured[key].Get(sh)| >= Capacity(sh) then
      (Session(ensured, sess.pending), Some(Refused(CapacityExceeded)))
    else
      (Session(ensured, Some(Pending(key, sh, ensured))), None)
  }

  /**
   * The save button. Without a pending dialog nothing happens; without a
   * chosen name the dialog stays open with an alert. Otherwise the capacity
   * and duplicate checks are repeated: a full shift closes the dialog, a
   * duplicate keeps it open, and an accepted name is appended, the document
   * saved (or reloaded on failure) and the dialog closed.
   */
  function Confirm(sess: Session, selected: string, save: SaveResult): (r: (Session, Option<Notice>))
    ensures sess.pending.None? ==> r == (sess, None)
    ensures sess.pending.Some? && selected == "" ==> r == (sess, Some(MissingSelection))
    ensures r.1.Some? && r.1.value.Refused? ==> r.0.schedule == sess.schedule
    ensures r.1 == Some(Refused(DuplicateAssignment)) ==> r.0.pending == sess.pending
    ensures sess.pending.Some? && selected != "" && r.1 != Some(Refused(DuplicateAssignment)) ==> r.0.pending.None?
    ensures sess.pending.Some? && selected != "" ==>
      var p := sess.pending.value;
      var t := TryAppend(sess.schedule, p.date, p.shift, selected);
      && (r.1 == Some(Refused(CapacityExceeded)) <==> t == Failure(CapacityExceeded))
      && (r.1 == Some(Refused(DuplicateAssignment)) <==> t == Failure(DuplicateAssignment))
      && (t.Success? ==> r.0.schedule == AfterSave(t.value, save) && r.1 == SaveNotice(save))
    ensures sess.pending.Some? && selected != "" && save == Saved && r.1.None? ==>
      var p := sess.pending.value;
      && r.0.schedule.Keys == sess.schedule.Keys + {p.date}
      && Taken(r.0.schedule, p.date, p.shift) == Taken(sess.schedule, p.date, p.shift) + [selected]
      && Taken(r.0.schedule, p.date, p.shift.Other()) == Taken(sess.schedule, p.date, p.shift.Other())
      && forall k :: k in sess.schedule && k != p.date ==> k in r.0.schedule && r.0.schedule[k] == sess.schedule[k]
  {
    match sess.pending
    case None => (sess, None)
    case Some(p) =>
      if selected == "" then (sess, Some(MissingSelection))
      else
        match TryAppend(sess.schedule, p.date, p.shift, selected)
        case Failure(CapacityExceeded) =>
          RefusedAppendChangesNothing(sess.schedule, p.date, p.shift, selected);
          (Session(EnsureDate(sess.schedule, p.date), None), Some(Refused(CapacityExceeded)))
        case Failure(DuplicateAssignment) =>
          RefusedAppendChangesNothing(sess.schedule, p.date, p.shift, selected);
          (Session(EnsureDate(sess.schedule, p.date), sess.pending), Some(Refused(DuplicateAssignment)))
        case Success(updated) =>
          (Session(AfterSave(updated, save), None), SaveNotice(save))
  }

  /** The cancel button, a click outside the dialog or Escape: close it, change nothing else. */
  function Cancel(sess: Session): (r: Session)
    ensures r.schedule == sess.schedule && r.pending.None?
  {
    Session(sess.schedule, None)
  }

  /**
   * `removeAssignment(key, sh, index)`: nothing unless the user confirms;
   * then remove the entry, save, and reload on failure. The dialog state is
   * left alone.
   */
  function RemoveAssignment(sess: Session, key: string, sh: Shift, index: nat, confirmed: bool, save: SaveResult)
    : (r: (Session, Option<Notice>))
    ensures !confirmed ==> r == (sess, None)
    ensures r.0.pending == sess.pending
    ensures confirmed ==> r.0.schedule == AfterSave(RemoveAt(sess.schedule, key, sh, index), save)
    ensures confirmed ==> (r.1 == Some(SaveFailure) <==> save.SaveFailed?) && (r.1.None? <==> save.Saved?)
    ensures confirmed && save == Saved ==> r == (Session(RemoveAt(sess.schedule, key, sh, index), sess.pending), None)
  {
    if !confirmed then (sess, None)
    else (Session(AfterSave(RemoveAt(sess.schedule, key, sh, index), save), sess.pending), SaveNotice(save))
  }

  /** The user actions the board reacts to. */
  datatype Event =
    | Add(date: string, shift: Shift)
    | Save(selected: string, result: SaveResult)
    | Close
    | Remove(date: string, shift: Shift, index: nat, confirmed: bool, result: SaveResult)

  function Step(sess: Session, ev: Event): (Session, Option<Notice>) {
    match ev
    case Add(key, sh) => HandleAdd(sess, key, sh)
    case Save(selected, save) => Confirm(sess, selected, save)
    case Close => (Cancel(sess), None)
    case Remove(key, sh, index, confirmed, save) => RemoveAssignment(sess, key, sh, index, confirmed, save)
  }

  /** The remote snapshot an event may reload, if any. */
  function Reloaded(ev: Event): Option<Schedule> {
    match ev
    case Save(_, SaveFailed(Some(remote))) => Some(remote)
    case Remove(_, _, _, _, SaveFailed(Some(remote))) => Some(remote)
    case _ => None
  }

  /**
   * Every event keeps each shift within capacity and free of duplicates,
   * provided a reloaded remote snapshot is itself well formed (the remote
   * copy is trusted, not checked).
   */
  lemma StepPreservesWellFormed(sess: Session, ev: Event)
    requires WellFormed(sess.schedule)
    requires Reloaded(ev).Some? ==> WellFormed(Reloaded(ev).value)
    ensures WellFormed(Step(sess, ev).0.schedule)
  {
    match ev
    case Save(selected, save) =>
      if sess.pending.Some? && selected != "" {
        var p := sess.pending.value;
        if TryAppend(sess.schedule, p.date, p.shift, selected).Success? {
          TryAppendPreservesWellFormed(sess.schedule, p.date, p.shift, selected);
        }
      }
    case Remove(key, sh, index, confirmed, save) =>
      RemoveAtPreservesWellFormed(sess.schedule, key, sh, index);
    case _ =>
  }

  /**
   * The picker is built once, when the dialog opens, and the save button
   * does not re-check the weekly cap. An offer is still good when every name
   * the picker offered is eligible on the current schedule too.
   */
  ghost predicate OfferCurrent(sess: Session) {
    sess.pending.Some? ==>
      var p := sess.pending.value;
      forall n :: Eligible(p.offeredOn, p.date, p.shift, n) ==> Eligible(sess.schedule, p.date, p.shift, n)
  }

  /**
   * Every event that reloads nothing keeps the picker's offers good: the
   * add button rebuilds the picker or changes no count, and a removal never
   * withdraws an offer. A reloaded remote snapshot may withdraw any offer.
   */
  lemma StepKeepsOfferCurrent(sess: Session, ev: Event)
    requires OfferCurrent(sess)
    requires Reloaded(ev).None?
    ensures OfferCurrent(Step(sess, ev).0)
  {
    var next := Step(sess, ev).0;
    match ev
    case Add(key, sh) =>
      if next.pending == sess.pending && sess.pending.Some? {
        var p := sess.pending.value;
        forall n | Eligible(p.offeredOn, p.date, p.shift, n)
          ensures Eligible(next.schedule, p.date, p.shift, n)
        {
          EnsureDateKeepsEligible(sess.schedule, key, p.date, p.shift, n);
        }
      }
    case Save(selected, save) =>
      if sess.pending.Some? && selected != "" {
        var p := sess.pending.value;
        if TryAppend(sess.schedule, p.date, p.shift, selected).Failure? {
          RefusedAppendChangesNothing(sess.schedule, p.date, p.shift, selected);
        }
      }
    case Close =>
    case Remove(key, sh, index, confirmed, save) =>
      if confirmed && sess.pending.Some? {
        var p := sess.pending.value;
        assert next.schedule == RemoveAt(sess.schedule, key, sh, index);
        forall n | Eligible(p.offeredOn, p.date, p.shift, n)
          ensures Eligible(next.schedule, p.date, p.shift, n)
        {
          RemoveKeepsEligible(sess.schedule, p.date, p.shift, n, key, sh, index);
        }
      }
  }

  /**
   * The weekly cap holds after every event, provided a confirmed name is one
   * the picker offered when the dialog opened, the picker's offers are still
   * good, and a reloaded snapshot obeys the cap.
   */
  lemma StepPreservesCap(sess: Session, ev: Event)
    requires CapHolds(sess.schedule)
    requires OfferCurrent(sess)
    requires Reloaded(ev).Some? ==> CapHolds(Reloaded(ev).value)
    requires ev.Save? && sess.pending.Some? ==>
      Eligible(sess.pending.value.offeredOn, sess.pending.value.date, sess.pending.value.shift, ev.selected)
    ensures CapHolds(Step(sess, ev).0.schedule)
  {
    match ev
    case Add(key, sh) =>
      EnsureDateKeepsCap(sess.schedule, key);
    case Save(selected, save) =>
      if sess.pending.Some? && selected != "" {
        var p := sess.pending.value;
        if TryAppend(sess.schedule, p.date, p.shift, selected).Success? {
          AppendOfferedKeepsCap(sess.schedule, p.date, p.shift, selected);
        }
      }
    case Close =>
    case Remove(key, sh, index, confirmed, save) =>
      RemoveKeepsCap(sess.schedule, key, sh, index);
  }

  /** Every save in `evs` confirms a name the open dialog's picker offered. */
  ghost predicate PicksFromPicker(sess: Session, evs: seq<Event>)
    decreases |evs|
  {
    |evs| > 0 ==>
      && (evs[0].Save? && sess.pending.Some? ==>
            Eligible(sess.pending.value.offeredOn, sess.pending.value.date, sess.pending.value.shift, evs[0].selected))
      && PicksFromPicker(Step(sess, evs[0]).0, evs[1..])
  }

  /** The session after a sequence of events. */
  function Run(sess: Session, evs: seq<Event>): Session
    decreases |evs|
  {
    if |evs| == 0 then sess else Run(Step(sess, evs[0]).0, evs[1..])
  }

  /**
   * From a session whose picker offers are good (no dialog open, or one just
   * opened) and where the cap holds, any sequence of events that reloads
   * nothing and saves only names the picker offered keeps the weekly cap.
   */
  lemma {:induction false} RunPreservesCap(sess: Session, evs: seq<Event>)
    requires CapHolds(sess.schedule) && OfferCurrent(sess)
    requires forall i :: 0 <= i < |evs| ==> Reloaded(evs[i]).None?
    requires PicksFromPicker(sess, evs)
    ensures CapHolds(Run(sess, evs).schedule)
    decreases |evs|
  {
    if |evs| > 0 {
      assert Reloaded(evs[0]).None?;
      StepPreservesCap(sess, evs[0]);
      StepKeepsOfferCurrent(sess, evs[0]);
      var rest := evs[1..];
      assert forall i :: 0 <= i < |rest| ==> Reloaded(rest[i]).None? by {
        forall i | 0 <= i < |rest|
          ensures Reloaded(rest[i]).None?
        {
          assert rest[i] == evs[i + 1];
        }
      }
      RunPreservesCap(Step(sess, evs[0]).0, rest);
    }
  }

  /** Opening the dialog builds the picker from the current schedule, so its offers are good. */
  lemma OpeningMakesOffersCurrent(sess: Session, key: string, sh: Shift)
    requires HandleAdd(sess, key, sh).1.None?
    ensures OfferCurrent(HandleAdd(sess, key, sh).0)
  {
  }

  /** Saving and removing never leave an empty day record behind (given a clean snapshot on reload). */
  lemma SaveAndRemoveKeepNoEmptyDays(sess: Session, ev: Event)
    requires ev.Save? || ev.Remove?
    requires NoEmptyDays(sess.schedule)
    requires Reloaded(ev).Some? ==> NoEmptyDays(Reloaded(ev).value)
    ensures NoEmptyDays(Step(sess, ev).0.schedule)
  {
    match ev
    case Save(selected, save) =>
      if sess.pending.Some? && selected != "" {
        var p := sess.pending.value;
        if TryAppend(sess.schedule, p.date, p.shift, selected).Success? {
          TryAppendPreservesNoEmptyDays(sess.schedule, p.date, p.shift, selected);
        }
      }
    case Remove(key, sh, index, confirmed, save) =>
      RemoveAtPreservesNoEmptyDays(sess.schedule, key, sh, index);
  }

  /**
   * Opening the dialog on an empty date and then cancelling leaves an empty
   * day record in the schedule: `openAssignmentModal` calls `ensureDate`
   * and closing the dialog does not undo it.
   */
  lemma OpenThenCancelLeavesEmptyDay(sess: Session, key: string, sh: Shift)
    requires key !in sess.schedule
    ensures var shown := Step(sess, Add(key, sh)).0;
      var closed := Step(shown, Close).0;
      && shown.pending == Some(Pending(key, sh, shown.schedule))
      && key in closed.schedule && closed.schedule[key].IsEmpty()
      && !NoEmptyDays(closed.schedule)
  {
  }

  /**
   * A failed save followed by a successful reload adopts the remote copy,
   * so the name just appended is lost when the remote copy lacks it.
   */
  lemma FailedSaveAdoptsRemote(sess: Session, selected: string, remote: Schedule)
    requires sess.pending.Some? && selected != ""
    requires TryAppend(sess.schedule, sess.pending.value.date, sess.pending.value.shift, selected).Success?
    ensures Confirm(sess, selected, SaveFailed(Some(remote))) == (Session(remote, None), Some(SaveFailure))
  {
  }
}

=== FILE: wrappers.dfy ===
/** Small failure-carrying datatypes shared by the other modules. */
module Wrappers {

  /** A value that may be absent; stands for JavaScript's `null` / `undefined` results. */
  datatype Option<+T> = None | Some(value: T)

  /** Either a computed value or the reason the operation refused to compute it. */
  datatype Result<+R, +E> = Success(value: R) | Failure(error: E)
}
